=== FILE: README.md ===
# DONDRA LANKA storefront rules in Dafny

The DONDRA LANKA storefront is a Next.js shop for seafood products with an
admin panel. Most of its code renders pages and talks to MongoDB. Spread
through it are small sequential rules, and this project states those rules
in Dafny and proves properties about them:

- which hot deals and news banners are live, and how much time a deal has left;
- the two auto-scrolling carousels;
- the category slug;
- the two admin route guards;
- the price-list store and its single-Active rule;
- the admin list screens (search, selectors, category dropdown, delete);
- the create handlers for hot deals and products, and the new-product form;
- the mock authentication context.

Conventions:

- Time is an integer number of milliseconds, with `DAY = 86400000` and
  `HOUR = 3600000`. The current time is always a parameter.
- A collection is a `seq` of records, oldest first.
- A parsed JSON body is a `map<string, JsValue>`. `JsValue` covers
  `undefined`, `null`, booleans, integers, strings and arrays, and follows
  JavaScript truthiness.
- A handler's answer is `Reply<T>`: either `Ok(code, value)` or
  `Error(code, message)`.
- Calls the model cannot see become parameters. These are Mongoose's
  `isValidObjectId`, JavaScript's `Number`, the id the database assigns, and
  the outcome of each fetch or upload.

Modules, one per concern: `Wrappers`, `Seqs`, `Text`, `Http` (shared
helpers), `TimeLeft`, `HotDealModel`, `HotDealsApi`, `Promotions`,
`Carousel`, `Slug`, `RouteGuard`, `PriceListStore`, `AdminLists`,
`ProductsApi`, `ProductForm` and `MockAuth`.

The products create handler builds a description, a minimum order and a
stock status, but the product schema does not declare those paths, and a
strict Mongoose schema drops undeclared paths on save. The model follows the
schema: `ProductsApi.Post` stores what the schema keeps. The schema the
handler evidently expects is modelled as `ProductsApi.PostCorrected`; see
Findings.

## Model

| member | source | states |
|---|---|---|
| TimeLeft.SplitRemaining | app/api/hot-deals/route.ts:13-14 | for a positive remaining time, the hours are below 24, and whole days plus whole hours bracket the time to within one hour |
| TimeLeft.ParseCountdownText | app/api/hot-deals/route.ts:16 | the `Nd Hh` text reads back to the same days and hours |
| TimeLeft.CalculateTimeLeft | app/api/hot-deals/route.ts:7-17 | "Expired" exactly when the end is not after now; otherwise the text reads back to a countdown with hours below 24 that brackets the remaining time |
| TimeLeft.CeilDays | models/HotDeal.ts:27-28 | the day count is the least whole number of days covering the remaining time |
| TimeLeft.CeilDaysMonotone | models/HotDeal.ts:27-28 | for a fixed now, a later end date never gives fewer days |
| TimeLeft.TimeLeftLabel | models/HotDeal.ts:25-34 | "Expired" iff the deal ended at least a day ago; "Ends today" iff it ended less than a day ago or ends now; "1 day" iff it ends within the next day; otherwise the label reads back to a day count of at least 2 |
| TimeLeft.DaysLabelRoundTrip | app/hot-deals/page.tsx:47-54 | every label for a day count of at least 0 reads back to that count, and counts of 2 or more never collide with the three fixed labels |
| TimeLeft.FormattersDisagreeAfterEnd | appz/api/hot-deals/route.ts:111-120 | in the day after the end, the route's countdown already says "Expired" while the ceiling formatter says "Ends today" |
| HotDealModel.ParseStatus | models/HotDeal.ts:12-14 | a parsed status always names the text it was read from |
| HotDealModel.ParseStatusName | models/HotDeal.ts:12-14 | every status name reads back to its status |
| HotDealModel.StatusOnSave | models/HotDeal.ts:12-17 | an absent status is stored as Active; a stored status is the given name; every name in the enumeration is accepted |
| HotDealsApi.ListDeals | app/api/hot-deals/route.ts:32-54 | the reply keeps exactly the deals with a product, in query order, each with the countdown for its end date |
| HotDealsApi.CreateDeal | app/api/hot-deals/route.ts:65-137 | 400 "Missing required fields" when any of the seven fields is falsy; 400 "Invalid product ID" only after they all pass; past both, the deal is created with 200 iff name and discount cast to text, both prices to numbers, both dates to valid dates, the description is non-empty text and the given status, or Active when it is falsy, names a status; the created record holds the body's eight fields exactly as given, with that status; every other case past the two checks is a 500 |
| HotDealsApi.ZeroPriceRejected | app/api/hot-deals/route.ts:84-89 | an original price of 0 is refused as missing |
| HotDealsApi.IdCheckAfterRequired | app/api/hot-deals/route.ts:84-97 | while a required field is missing, the id check cannot affect the reply |
| HotDealsApi.FirstMissingField | appz/api/hot-deals/route.ts:62-80 | the loop reports nothing iff all eight fields are present, else the first falsy field in checking order |
| HotDealsApi.CreateDealForcedActive | appz/api/hot-deals/route.ts:55-109 | the first falsy field in checking order is named in a 400, then an invalid product id is a 400; past both, the deal is created iff the schema casts succeed (name, description and discount to text, prices to numbers, dates to valid dates), with 201, the body's eight fields exactly as given and status Active whatever the body says; a failed cast is a 500 |
| Promotions.LiveDeals | app/hot-deals/page.tsx:24-29 | the shown deals are an order-preserving subsequence, and a deal is shown iff now lies in its window and it is Active; there are exactly as many as pass that test, so none is dropped or repeated |
| Promotions.InactiveDealHidden | app/hot-deals/page.tsx:28 | a Scheduled or Expired deal is never shown, whatever its dates |
| Promotions.InvertedWindowRedundant | components/news-banners.tsx:30-35 | rejecting an end before the start never changes the verdict of the window test |
| Promotions.LiveBanners | components/news-banners.tsx:24-50 | the kept banners are an order-preserving subsequence, and a banner is kept iff its window is ordered, contains now, and it is Active; there are exactly as many as pass that test |
| Promotions.BannerStripView | components/news-banners.tsx:72-94 | a skeleton iff loading; with nothing kept, a notice in development and nothing otherwise; else the strip of kept banners |
| Promotions.ActiveDealCount | app/admin/page.tsx:60-67 | the count is the number of live Active deals, at most the number fetched |
| Promotions.ActiveBannerCount | app/admin/page.tsx:74-81 | the count is the number of live Active banners, at most the number fetched |
| Promotions.DashboardCountsStripBanners | app/admin/page.tsx:74-81 | the dashboard counts exactly the banners the storefront strip shows |
| Promotions.FetchStats | app/admin/page.tsx:47-90 | the three fetches run in order; the first failure leaves it and every later stat at 0; a fetched stat is the product total, the number of deals matching the live-deal filter, and the number of banners matching the live-banner filter |
| Promotions.StatValue | app/admin/page.tsx:99-115 | "..." while loading, else a decimal text that reads back to the count |
| Carousel.VisibleItems | components/hot-deals.tsx:60-67 | 1 card iff the width is below 640, 3 iff at least 1024, else 2 |
| Carousel.VisibleItemsMonotone | components/hot-deals.tsx:60-67 | a wider window never shows fewer cards |
| Carousel.ScrollToIndex | components/hot-deals.tsx:96-106 | moves to the index once measured; unmounted or unmeasured, changes nothing |
| Carousel.Pause | components/hot-deals.tsx:182 | the pointer entering pauses without moving, unmounting or re-measuring |
| Carousel.Resume | components/hot-deals.tsx:183 | the pointer leaving, or the 5-second timer, resumes without moving, unmounting or re-measuring |
| Carousel.ClampIndex | components/hot-deals.tsx:112-119 | below 0 gives 0, past the last full page gives `len - visible` (negative when there are fewer deals than cards, as in the code), and an index in between is kept; with `len >= visible` the result is in `[0, len - visible]` |
| Carousel.StripNavigate | components/hot-deals.tsx:109-125 | an arrow press pauses; on a measured strip "left" moves back one place unless on the first page and "right" moves on one place unless on the last page; from any start, even one a resize left out of range, the index ends in `[0, len - visible]` when there are at least `visible` deals |
| Carousel.StripTick | components/hot-deals.tsx:128-156 | a tick does nothing while paused or unmeasured, else moves on one place, wrapping to 0 past the last full page; it never changes the pause flag, the mount state or the measured width |
| Carousel.StripRangeInvariant | components/hot-deals.tsx:109-156 | navigation, ticks, pausing and resuming keep the strip's index in `[0, len - visible]` |
| Carousel.StripStopsAtEnds | components/hot-deals.tsx:115-119 | "left" on the first page and "right" on the last page stay put |
| Carousel.StripLeftThenRight | components/hot-deals.tsx:109-120 | away from the first page, left then right returns to the same index |
| Carousel.WrapIndex | components/product-category-tabs.tsx:68-77 | one step outside `[0, len)` wraps round; the result is the index modulo `len` |
| Carousel.TabsNavigate | components/product-category-tabs.tsx:65-81 | an arrow press pauses, and measured tabs move one place cyclically |
| Carousel.TabsTick | components/product-category-tabs.tsx:84-110 | a tick does nothing while paused or unmeasured, else sets the index to `(index + 1) mod len`; it never changes the pause flag, the mount state or the measured width |
| Carousel.TabsWrapAtEnds | components/product-category-tabs.tsx:68-74 | left from the first tab reaches the last, and right from the last reaches the first |
| Carousel.TabsLeftRightInverse | components/product-category-tabs.tsx:65-81 | left and right undo each other from every tab |
| Carousel.TabsFullCycle | components/product-category-tabs.tsx:90-98 | `k` ticks of running tabs advance the index by `k` modulo `len`, so `len` ticks come back to the start |
| Slug.Collapse | app/api/categories/route.ts:24 | the rewrite uses only `a-z`, `0-9` and `-`, never two dashes in a row, and is no longer than its input |
| Slug.Slugify | app/api/categories/route.ts:24 | the slug keeps to the slug alphabet, has no double dash, is no longer than the name, and keeps a leading separator run as `-` |
| Slug.SlugMatchesRunRewrite | app/api/categories/route.ts:24 | the slug equals the lowercased name with every maximal run outside `[a-z0-9]` replaced by one `-` |
| Slug.TrailingRunKept | app/api/categories/route.ts:24 | a trailing separator run becomes a final `-`, not trimmed |
| Slug.CollapseFixed | app/api/categories/route.ts:24 | text already in slug form passes through unchanged |
| Slug.SlugifyIdempotent | app/api/categories/route.ts:24 | slugging a slug changes nothing |
| Slug.CategoryInput | app/api/categories/route.ts:23-29 | the document handed to `create` keeps every body key and sets `slug` to the slug of the name, which is lower-case letters, digits and single dashes |
| Slug.CreateCategory | app/api/categories/route.ts:18-38 | a non-string name gives 500; otherwise the answer is 201 with what `create` stores for the body plus its slug, or 500 when that save fails |
| RouteGuard.Middleware | middleware.ts:4-34 | non-admin paths and the four public auth pages pass; any other admin path redirects to the login page iff no token is present |
| RouteGuard.RedirectTargetIsPublic | middleware.ts:8-31 | the redirect target passes the middleware itself, so redirects never chain |
| RouteGuard.TokenNotInspected | middleware.ts:26-33 | any two present tokens get the same decision |
| RouteGuard.PublicRoutesAreAuthRoutes | app/admin/layout.tsx:21 | every page the middleware treats as public, the layout treats as an auth page |
| RouteGuard.GuardsDisagreeOnUnlistedAuthPage | app/admin/layout.tsx:21 | an unlisted page under `/admin/auth/` is an auth page for the layout but is redirected by the middleware |
| RouteGuard.LayoutEffectOf | app/admin/layout.tsx:24-50 | push to login iff no token off an auth page; validate iff a token off an auth page; nothing on an auth page |
| RouteGuard.LayoutViewOf | app/admin/layout.tsx:53-64 | an auth page renders bare; otherwise nothing until authenticated; the shell highlights at most the one link equal to the path |
| RouteGuard.Highlighted | app/admin/layout.tsx:62-64 | a nav link is highlighted iff the path equals its href exactly |
| PriceListStore.DeactivateAll | app/api/price-list/upload/route.ts:19-22 | every record ends Inactive and keeps its image |
| PriceListStore.StatusOnCreate | models/PriceList.ts:8-12 | an absent status is stored Active; "Active" and "Inactive" map to themselves |
| PriceListStore.Create | app/api/price-list/route.ts:43-50 | the save succeeds iff the image URL casts to non-empty text (the schema's `required`) and the status is valid; it then appends and returns, with 200, the record holding that URL and status; otherwise the store is left and the answer is 500 |
| PriceListStore.Post | app/api/price-list/route.ts:22-44 | a falsy image URL gives 400 with the store unchanged; otherwise the POST succeeds iff the URL casts to a string and the status is absent or a valid name, storing that URL and status (Active by default); with status "Active" every earlier list is deactivated, even if the save then fails, and only the new list is Active; with any other status earlier records are untouched; a failed save is a 500 that leaves the store as it was after that deactivation step |
| PriceListStore.PostWithoutStatusLeavesTwoActive | app/api/price-list/route.ts:36-43 | a POST without a status on a store with an Active list ends with two Active lists |
| PriceListStore.PostCorrected | app/api/price-list/route.ts:22-44 | as the POST, with the same success condition and stored record, but earlier lists are deactivated whenever the stored status is Active, default included, so a new Active list is the only Active one; a failed save is a 500 that leaves the store as it was after that deactivation step |
| PriceListStore.PostCorrectedKeepsOneActive | app/api/price-list/route.ts:35-43 | the corrected POST keeps at most one list Active |
| PriceListStore.Upload | app/api/price-list/upload/route.ts:5-30 | a falsy URL gives 400 with the store unchanged; otherwise every earlier list is deactivated, and the upload succeeds iff the URL casts to a string, adding one Active record with that URL as the only Active one; a failed cast answers 500 with every list already Inactive and no record added |
| PriceListStore.UploadKeepsOneActive | app/api/price-list/upload/route.ts:18-28 | an upload, accepted or not, leaves at most one list Active |
| PriceListStore.UploadAcceptsStringUrl | app/api/price-list/upload/route.ts:25-28 | a non-empty string URL is always stored as a new Active list, whatever status the body gives |
| PriceListStore.ActiveOrNewest | app/api/price-list/active/route.ts:14-37 | the newest Active list if any, else the newest list, and nothing iff the store is empty |
| PriceListStore.StoreKeepsOneActive | app/api/price-list/upload/route.ts:19-28 | any run of uploads and corrected POSTs keeps at most one list Active |
| AdminLists.LoadProducts | app/admin/products/page.tsx:25-47 | an array reply is the product list; a non-array reply or a failed fetch leaves it empty |
| AdminLists.FilterProducts | app/admin/products/page.tsx:77-82 | the shown products are an order-preserving subsequence, and a product is shown iff its name contains the search case-insensitively and category and status match or are "All"; there are exactly as many as pass that test |
| AdminLists.UnfilteredProductsShowAll | app/admin/products/page.tsx:77-82 | an empty search with "All" and "All" shows every product |
| AdminLists.CategoryOptions | app/admin/products/page.tsx:85 | "All" followed by each product category exactly once, in order of first appearance, and nothing else |
| AdminLists.FilterDeals | appz/admin/hot-deals/page.tsx:104-108 | the shown deals are an order-preserving subsequence, and a deal is shown iff its name contains the search case-insensitively and its status matches or is "All"; there are exactly as many as pass that test |
| AdminLists.UnfilteredDealsShowAll | appz/admin/hot-deals/page.tsx:104-108 | an empty search with "All" shows every deal |
| AdminLists.ShowingCounts | appz/admin/hot-deals/page.tsx:293-294 | X in "Showing X of Y" is the number of rows the filtered table shows, i.e. the number of loaded deals passing the search and status filters, and Y the number loaded |
| AdminLists.AfterDelete | appz/admin/hot-deals/page.tsx:44-57 | a successful delete removes exactly the deals with that id and keeps the rest in order, as many as there are deals with another id; a failed one changes nothing |
| ProductsApi.Keep | models/Product.ts:3-25 | a save keeps each declared path and drops every other |
| ProductsApi.FindById | app/api/products/route.ts:13-15 | nothing iff no product has the id; otherwise a product of the catalog with that id |
| ProductsApi.Get | app/api/products/route.ts:5-36 | no id or an empty one lists every product; an id that is not an ObjectId gives 500; a valid id gives 404 iff no product has it, else that product |
| ProductsApi.UnreadFieldsIgnored | app/api/products/route.ts:53-62 | body keys outside the seven the handler reads, such as `stock`, change nothing |
| ProductsApi.Persist | models/Product.ts:3-25 | for a document the required checks accept, the stored document keeps exactly the declared paths and holds the category as text |
| ProductsApi.Save | app/api/products/route.ts:64-80 | the save succeeds iff the name is non-empty and the category casts to non-empty text; success appends the stored product and answers 201, failure answers 500 and leaves the catalog alone |
| ProductsApi.PostWith | app/api/products/route.ts:38-81 | a missing, null or blank description gives 400 and nothing is stored; the create succeeds iff the description is a non-blank string, the name a string not blank once trimmed, the price a number and the category non-empty text; success appends the product with 201 and the new id, holding the trimmed name, the category as text, the price, the images and `isFeatured` false, and nothing outside the schema; every failure leaves the catalog alone |
| ProductsApi.PersistStoresRequest | app/api/products/route.ts:53-65 | past the description, name and price checks, the schema's required checks pass exactly for a creatable request, and the stored document then holds what the request gave |
| ProductsApi.KeptByBothSchemas | models/Product.ts:3-25 | the name, price, images and `isFeatured` paths, declared by both schemas, survive the save unchanged, and the category is stored as text |
| ProductsApi.Post | app/api/products/route.ts:38-81 | as written: the same 400, the same success condition, and the trimmed name, category, price, images and `isFeatured` false stored with 201; but a created product never holds a description, minimum order or status |
| ProductsApi.PostCorrected | app/api/products/route.ts:38-81 | under the intended schema: the same 400 and success condition, and a created product holds the trimmed name and description, the category as text, the price, the given status or "In Stock", `isFeatured` false and the given images |
| ProductsApi.DeclaredSchemaDropsDescriptionAndStatus | models/Product.ts:3-25 | a document with a description and a status that the required checks accept is saved under both schemas, but only the intended schema keeps those two fields |
| ProductForm.AfterUpload | app/admin/products/new/page.tsx:18-67 | no files or any failed upload leaves the images unchanged; otherwise every new URL follows the old images, in file order |
| ProductForm.RemoveImage | app/admin/products/new/page.tsx:69-71 | exactly position `i` is removed and the others keep their order; an index out of range changes nothing |
| ProductForm.RemoveUndoesUpload | app/admin/products/new/page.tsx:48-71 | removing the image a one-file upload appended restores the list |
| ProductForm.Submit | app/admin/products/new/page.tsx:73-98 | with no image nothing is sent; otherwise the payload has the form's name and description, the image list and status "In Stock" |
| ProductForm.SubmittedProductInStock | app/admin/products/new/page.tsx:89-98 | a submitted form that the intended API accepts is stored "In Stock" with the uploaded images |
| MockAuth.WithoutPassword | hooks/use-auth.tsx:71 | the exposed user keeps id, name, email and role |
| MockAuth.FindLogin | hooks/use-auth.tsx:64 | the first user whose email matches ignoring case and whose password matches exactly, or nothing iff there is none |
| MockAuth.Login | hooks/use-auth.tsx:62-76 | succeeds iff some user matches; then the user is the first match without its password; a failure throws and changes nothing |
| MockAuth.Register | hooks/use-auth.tsx:79-101 | refuses an email in use ignoring case and changes nothing; otherwise appends an admin with id count+1 and leaves the signed-in user alone |
| MockAuth.Logout | hooks/use-auth.tsx:104-107 | afterwards no one is signed in and the user list is unchanged |
| MockAuth.AfterValidation | app/admin/layout.tsx:33-45 | a successful token validation leaves the session as it is; a failed one, or a thrown fetch, logs out and keeps the user list |
| MockAuth.InitialValid | hooks/use-auth.tsx:32-40 | the demo list has distinct emails and sequential ids |
| MockAuth.RegisterKeepsValid | hooks/use-auth.tsx:79-101 | registration keeps emails distinct ignoring case and ids sequential |
| MockAuth.IdsDistinct | hooks/use-auth.tsx:89 | in such a list no two users share an id |
| MockAuth.RegisterThenLogin | hooks/use-auth.tsx:62-101 | a freshly registered account can log in with the same email and password, as the new user |
| MockAuth.LoginLogoutRestores | hooks/use-auth.tsx:62-107 | from signed out, logging in then out gives back the same state |
| Text.Trim | app/api/products/route.ts:46-57 | the trimmed text is a slice of the input with only whitespace before and after it; it is empty iff the input is all whitespace, and otherwise starts and ends with non-whitespace |
| Text.TrimUnique | app/api/products/route.ts:46-57 | any slice with only whitespace around it that is empty iff the input is all whitespace and otherwise starts and ends with non-whitespace is the trimmed text, so the `Trim` contract determines its result |
| Text.NatToString | app/admin/page.tsx:99 | a decimal text of at least one digit with no leading zero |
| Text.ParseNatToString | app/admin/page.tsx:99 | a count's decimal text reads back to the count |
| Text.ParseNatCanonical | app/admin/page.tsx:99 | the only text that reads back to a count is that count's decimal rendering, so every read-back contract above fixes the text itself |

## Left out

- Database and network I/O: `connectDB`, `find`, `populate`, `fetch` and the Cloudinary upload are not modelled. Their outcomes are parameters: a fetch result, an upload result per file, `isValidObjectId`, and the id a save assigns.
- Time: `new Date()` is a `now` parameter. ISO date parsing and formatting are not modelled. Dates are integer milliseconds.
- Sorting by `createdAt`: stores are sequences in creation order, with no two records created at the same instant.
- Timestamps: `createdAt` and `updatedAt` are not stored in the product document. The `.select` list names every modelled field, so selection is the identity here.
- Numbers: prices and counts are integers. JavaScript's `Number` coercion is a parameter that returns nothing for NaN.
- Mongoose casting: only what a rule depends on is modelled. That is the price-list and product string casts, the hot-deal string, number and date casts, enum checks, and the required name and category of a product. The number cast and the validity of `new Date(x)` are parameters. Casting of product images is not modelled.
- Unicode case mapping: lowercasing is ASCII-only, as the slug and the case-insensitive searches use it.
- React rendering, toasts, confirm dialogs and styling.
- Carousel geometry: pixel widths and float item widths are not modelled. Only "measured or not" is kept.
- Carousel timers: the 5-second resume and the 4-second (strip) and 3-second (tabs) intervals are `Resume` and tick events.
- Carousel resize: a change of `visibleItems` on resize is not an event of the model and does not re-clamp the index, so it can leave the strip's index past the last full page; `Carousel.StripRangeInvariant` holds between resizes, and the next arrow press clamps the index back into range.
- Carousel.TabsNavigate: requires a non-empty tab list. The tabs run on a fixed, non-empty category list.
- The middleware's `matcher` configuration is not modelled. The middleware is modelled as if it ran on every path.
- The development-mode check of the banner strip is a boolean parameter.
- JWT signing, bcrypt hashing, the login, register, validate and reset-password API routes, and email sending are not modelled. They are foreign library calls.
- The products page's delete button is not modelled. It only refetches the list.
- MockAuth: restoring the user from local storage on mount and the `isLoading` flag are not modelled. The module-level mock list is part of the state.
- models/Category.ts is not part of this model: what the category schema casts, defaults, requires or rejects as a duplicate is the `create` parameter of `Slug.CreateCategory`.
- Admin pages running on hard-coded mock arrays: their rules are modelled, not their data.

## Findings

| source | as written | input that shows it | evidently intended | confidence | as-written member | corrected member |
|---|---|---|---|---|---|---|
| app/api/price-list/route.ts:36-43 | earlier lists are deactivated only when the body says `status: 'Active'`, but the schema default stores a status-less list as Active | a store holding one Active list, then a POST with an image URL and no status | deactivate whenever the stored list will be Active, so at most one list is Active | medium, not executed | PriceListStore.PostWithoutStatusLeavesTwoActive | PriceListStore.PostCorrectedKeepsOneActive |
| models/Product.ts:3-25 | the create handler builds a description, minimum order and status, but the strict product schema declares none of them, so the save drops them | a POST with name "Tuna", category "Fish", price 12, description "Fresh" and status "Low Stock" | the schema declares those paths, and the product is stored with its description and status | medium, not executed | ProductsApi.DeclaredSchemaDropsDescriptionAndStatus | ProductsApi.PostCorrected |

=== FILE: admin_lists.dfy ===
/** The admin panel's list screens: loading the products, narrowing products
    and hot deals by a case-insensitive name search and "All"-or-equal
    selectors, the category dropdown, and removing a deleted deal. */
module AdminLists {
  import opened Seqs
  import opened Text
  import opened HotDealModel

  /** A product row as the products API returns it. */
  datatype Product = Product(
    id: string,
    name: string,
    category: string,
    price: int,
    status: string,
    images: seq<string>)

  /** What `fetch('/api/products')` produced. */
  datatype Fetched = FetchFailed | NotAnArray | Rows(rows: seq<Product>)

  /** `fetchProducts`: the rows when the reply is an array, nothing otherwise. */
  function LoadProducts(f: Fetched): (products: seq<Product>)
    ensures f.Rows? ==> products == f.rows
    ensures !f.Rows? ==> products == []
  {
    match f
    case Rows(rows) => rows
    case _ => []
  }

  /** `name.toLowerCase().includes(term.toLowerCase())`. */
  predicate MatchesSearch(name: string, term: string)
  {
    Contains(Lower(name), Lower(term))
  }

  /** A dropdown selection: "All" or an exact match. */
  predicate MatchesSelection(value: string, selected: string)
  {
    selected == "All" || value == selected
  }

  predicate ProductPasses(p: Product, term: string, category: string, status: string)
  {
    MatchesSearch(p.name, term) && MatchesSelection(p.category, category) && MatchesSelection(p.status, status)
  }

  /** The products table after search and the two selectors, in list order. */
  function FilterProducts(products: seq<Product>, term: string, category: string, status: string): (shown: seq<Product>)
    ensures IsSubsequence(shown, products)
    ensures |shown| == Count(products, p => ProductPasses(p, term, category, status))
    ensures forall i :: 0 <= i < |shown| ==>
      && Contains(Lower(shown[i].name), Lower(term))
      && (category == "All" || shown[i].category == category)
      && (status == "All" || shown[i].status == status)
    ensures forall i :: 0 <= i < |products| ==>
      (ProductPasses(products[i], term, category, status) ==> products[i] in shown)
  {
    Filter(products, p => ProductPasses(p, term, category, status))
  }

  /** With an empty search and both selectors on "All", every product shows. */
  lemma UnfilteredProductsShowAll(products: seq<Product>)
    ensures FilterProducts(products, "", "All", "All") == products
  {
    forall i | 0 <= i < |products|
      ensures ProductPasses(products[i], "", "All", "All")
    {
      EmptyIsContained(Lower(products[i].name));
    }
    FilterKeepsAll(products, p => ProductPasses(p, "", "All", "All"));
  }

  /** The position of the first occurrence of `x` in `s`. */
  function FirstIndex<T(==)>(s: seq<T>, x: T): (k: nat)
    requires x in s
    ensures k < |s| && s[k] == x && x !in s[..k]
  {
    if s[0] == x then 0
    else
      assert s == [s[0]] + s[1..];
      var k := 1 + FirstIndex(s[1..], x);
      assert s[..k] == [s[0]] + s[1..][..k - 1];
      k
  }

  predicate NoDuplicates<T(==)>(s: seq<T>)
  {
    forall i, j :: 0 <= i < j < |s| ==> s[i] != s[j]
  }

  function CategoriesOf(products: seq<Product>): (cats: seq<string>)
    ensures |cats| == |products|
    ensures forall i :: 0 <= i < |products| ==> cats[i] == products[i].category
  {
    seq(|products|, i requires 0 <= i < |products| => products[i].category)
  }

  /** The category dropdown: "All", then each product category once, in the
      order of first appearance (a `Set` iterates in insertion order). */
  method CategoryOptions(products: seq<Product>) returns (options: seq<string>)
    ensures |options| >= 1 && options[0] == "All"
    ensures forall i :: 0 <= i < |products| ==> products[i].category in options[1..]
    ensures forall k :: 1 <= k < |options| ==> options[k] in CategoriesOf(products)
    ensures NoDuplicates(options[1..])
    ensures forall a, b :: 1 <= a < b < |options| ==>
      FirstIndex(CategoriesOf(products), options[a]) < FirstIndex(CategoriesOf(products), options[b])
  {
    var cats := CategoriesOf(products);
    var seen: seq<string> := [];
    var i := 0;
    while i < |cats|
      invariant 0 <= i <= |cats|
      invariant DistinctFirstSeen(cats, i, seen)
    {
      if cats[i] !in seen {
        AppendFirstSeen(cats, i, seen);
        seen := seen + [cats[i]];
      } else {
        KeepFirstSeen(cats, i, seen);
      }
      i := i + 1;
    }
    assert cats[..i] == cats;
    options := ["All"] + seen;
    assert options[1..] == seen;
  }

  /** `seen` holds the distinct values of `s[..i]`, each once, ordered by first appearance. */
  predicate DistinctFirstSeen<T(==)>(s: seq<T>, i: int, seen: seq<T>)
    requires 0 <= i <= |s|
  {
    && NoDuplicates(seen)
    && (forall j :: 0 <= j < i ==> s[j] in seen)
    && (forall k :: 0 <= k < |seen| ==> seen[k] in s[..i])
    && (forall a, b :: 0 <= a < b < |seen| ==> FirstIndex(s, seen[a]) < FirstIndex(s, seen[b]))
  }

  lemma AppendFirstSeen<T>(s: seq<T>, i: int, seen: seq<T>)
    requires 0 <= i < |s| && DistinctFirstSeen(s, i, seen) && s[i] !in seen
    ensures DistinctFirstSeen(s, i + 1, seen + [s[i]])
  {
    assert s[..i + 1] == s[..i] + [s[i]];
    FirstSeenAt(s, i);
    forall k | 0 <= k < |seen|
      ensures FirstIndex(s, seen[k]) < i
    {
      EarlierFirstIndex(s, seen[k], i);
    }
  }

  lemma KeepFirstSeen<T>(s: seq<T>, i: int, seen: seq<T>)
    requires 0 <= i < |s| && DistinctFirstSeen(s, i, seen) && s[i] in seen
    ensures DistinctFirstSeen(s, i + 1, seen)
  {
    assert s[..i + 1] == s[..i] + [s[i]];
  }

  lemma EarlierFirstIndex<T>(s: seq<T>, x: T, i: int)
    requires 0 <= i <= |s| && x in s[..i]
    ensures FirstIndex(s, x) < i
  {
  }

  lemma FirstSeenAt<T>(s: seq<T>, i: int)
    requires 0 <= i < |s|
    requires forall j :: 0 <= j < i ==> s[j] != s[i]
    ensures FirstIndex(s, s[i]) == i
  {
  }

  predicate DealPasses(deal: HotDeal, term: string, status: string)
  {
    MatchesSearch(deal.name, term) && MatchesSelection(StatusName(deal.status), status)
  }

  /** The hot-deals table after search and the status selector, in list order. */
  function FilterDeals(deals: seq<HotDeal>, term: string, status: string): (shown: seq<HotDeal>)
    ensures IsSubsequence(shown, deals)
    ensures |shown| == Count(deals, d => DealPasses(d, term, status))
    ensures forall i :: 0 <= i < |shown| ==>
      Contains(Lower(shown[i].name), Lower(term)) && (status == "All" || StatusName(shown[i].status) == status)
    ensures forall i :: 0 <= i < |deals| ==> (DealPasses(deals[i], term, status) ==> deals[i] in shown)
  {
    Filter(deals, d => DealPasses(d, term, status))
  }

  /** With an empty search and "All", every deal shows. */
  lemma UnfilteredDealsShowAll(deals: seq<HotDeal>)
    ensures FilterDeals(deals, "", "All") == deals
  {
    forall i | 0 <= i < |deals|
      ensures DealPasses(deals[i], "", "All")
    {
      EmptyIsContained(Lower(deals[i].name));
    }
    FilterKeepsAll(deals, d => DealPasses(d, "", "All"));
  }

  /** "Showing X of Y hot deals": X is the number of rows in the filtered
      table, that is the number of loaded deals passing the filters, and Y
      the number loaded. */
  function ShowingCounts(deals: seq<HotDeal>, term: string, status: string): (counts: (nat, nat))
    ensures counts.0 <= counts.1 == |deals|
    ensures counts.0 == |FilterDeals(deals, term, status)|
    ensures counts.0 == Count(deals, d => DealPasses(d, term, status))
  {
    (|FilterDeals(deals, term, status)|, |deals|)
  }

  /** `handleDelete`: after a successful DELETE, drops every deal with that id
      and keeps the rest in order; after a failed one, changes nothing. */
  function AfterDelete(deals: seq<HotDeal>, id: string, deleted: bool): (r: seq<HotDeal>)
    ensures !deleted ==> r == deals
    ensures deleted ==> forall i :: 0 <= i < |r| ==> r[i].id != id
    ensures deleted ==> forall i :: 0 <= i < |deals| ==> (deals[i].id != id ==> deals[i] in r)
    ensures deleted ==> |r| == Count(deals, (d: HotDeal) => d.id != id)
    ensures IsSubsequence(r, deals)
  {
    if deleted then Filter(deals, (d: HotDeal) => d.id != id) else (SubsequenceOfSelf(deals); deals)
  }

  lemma {:induction false} SubsequenceOfSelf<T>(s: seq<T>)
    ensures IsSubsequence(s, s)
  {
    if s != [] {
      SubsequenceOfSelf(s[1..]);
    }
  }
}

=== FILE: carousel.dfy ===
/** The two auto-scrolling carousels as explicit state machines: the hot-deals
    strip, which clamps manual navigation and wraps to the start on
    auto-advance, and the category tabs, which wrap both ways. Timers, resize
    listeners and pixel offsets are events and parameters here; the measured
    item width is abstracted to an integer whose sign is all that matters. */
module Carousel {

  /** How many deal cards fit across a window of the given width. */
  function VisibleItems(innerWidth: int): (n: nat)
    ensures 1 <= n <= 3
    ensures n == 1 <==> innerWidth < 640
    ensures n == 3 <==> innerWidth >= 1024
  {
    if innerWidth < 640 then 1 else if innerWidth < 1024 then 2 else 3
  }

  /** A wider window never shows fewer cards. */
  lemma VisibleItemsMonotone(narrow: int, wide: int)
    requires narrow <= wide
    ensures VisibleItems(narrow) <= VisibleItems(wide)
  {
  }

  datatype Direction = Left | Right

  /** The state a carousel keeps: the current index, whether auto-advance is
      paused, whether the scroll container is mounted, and the measured width
      of one item. */
  datatype State = State(index: int, paused: bool, mounted: bool, itemWidth: int)

  /** `scrollToIndex` only acts once the container exists and has been measured. */
  predicate Measured(s: State)
  {
    s.mounted && s.itemWidth > 0
  }

  /** `scrollToIndex`: moves to `i`, or does nothing while unmeasured. */
  function ScrollToIndex(s: State, i: int): (r: State)
    ensures Measured(s) ==> r.index == i
    ensures !Measured(s) ==> r == s
    ensures r.paused == s.paused && r.mounted == s.mounted && r.itemWidth == s.itemWidth
  {
    if Measured(s) then s.(index := i) else s
  }

  /** The pause timer firing, or the pointer leaving the carousel. */
  function Resume(s: State): (r: State)
    ensures !r.paused && r.index == s.index
    ensures r.mounted == s.mounted && r.itemWidth == s.itemWidth
  {
    s.(paused := false)
  }

  /** The pointer entering the carousel. */
  function Pause(s: State): (r: State)
    ensures r.paused && r.index == s.index
    ensures r.mounted == s.mounted && r.itemWidth == s.itemWidth
  {
    s.(paused := true)
  }

  function Step(i: int, dir: Direction): int
  {
    if dir == Left then i - 1 else i + 1
  }

  // ---------------------------------------------------------------------
  // Hot-deals strip: `len` deals, `visible` of them on screen at once.

  /** The strip's boundary handling: below 0 goes to 0, beyond the last full
      page goes to the last full page. */
  function ClampIndex(i: int, len: int, visible: int): (j: int)
    ensures i < 0 ==> j == 0
    ensures 0 <= i && i > len - visible ==> j == len - visible
    ensures 0 <= i <= len - visible ==> j == i
    ensures len >= visible ==> 0 <= j <= len - visible
  {
    if i < 0 then 0 else if i > len - visible then len - visible else i
  }

  /** A press of an arrow on the strip: pauses, steps one place and clamps. */
  function StripNavigate(s: State, dir: Direction, len: int, visible: int): (r: State)
    ensures r.paused && r.mounted == s.mounted && r.itemWidth == s.itemWidth
    ensures !Measured(s) ==> r.index == s.index
    ensures Measured(s) && len >= visible ==> 0 <= r.index <= len - visible
    ensures Measured(s) && len >= visible && 0 <= s.index <= len - visible ==> -1 <= r.index - s.index <= 1
    ensures Measured(s) && dir == Left && 0 < s.index <= len - visible ==> r.index == s.index - 1
    ensures Measured(s) && dir == Right && 0 <= s.index < len - visible ==> r.index == s.index + 1
  {
    ScrollToIndex(Pause(s), ClampIndex(Step(s.index, dir), len, visible))
  }

  /** One tick of the strip's auto-advance interval: nothing while paused or
      unmounted, else the next index, or back to 0 past the last full page. */
  function StripTick(s: State, len: int, visible: int): (r: State)
    ensures s.paused || !Measured(s) ==> r == s
    ensures !s.paused && Measured(s) && s.index + 1 <= len - visible ==> r.index == s.index + 1
    ensures !s.paused && Measured(s) && s.index + 1 > len - visible ==> r.index == 0
    ensures r.paused == s.paused && r.mounted == s.mounted && r.itemWidth == s.itemWidth
  {
    if !s.paused && s.mounted then
      var next := s.index + 1;
      if next > len - visible then ScrollToIndex(s, 0) else ScrollToIndex(s, next)
    else s
  }

  /** The strip's index always names a full page. */
  predicate StripInRange(s: State, len: int, visible: int)
  {
    0 <= s.index <= len - visible
  }

  /** Navigation, auto-advance, pausing and resuming all keep the strip on a
      full page. */
  lemma StripRangeInvariant(s: State, dir: Direction, len: int, visible: int)
    requires len >= visible && StripInRange(s, len, visible)
    ensures StripInRange(StripNavigate(s, dir, len, visible), len, visible)
    ensures StripInRange(StripTick(s, len, visible), len, visible)
    ensures StripInRange(Pause(s), len, visible) && StripInRange(Resume(s), len, visible)
  {
  }

  /** "Left" at the first page and "right" at the last page stay put. */
  lemma StripStopsAtEnds(s: State, len: int, visible: int)
    requires len >= visible
    ensures s.index == 0 ==> StripNavigate(s, Left, len, visible).index == 0
    ensures s.index == len - visible ==> StripNavigate(s, Right, len, visible).index == len - visible
  {
  }

  /** Away from the first page, "left" then "right" comes back. */
  lemma StripLeftThenRight(s: State, len: int, visible: int)
    requires Measured(s) && 0 < s.index <= len - visible
    ensures StripNavigate(StripNavigate(s, Left, len, visible), Right, len, visible).index == s.index
  {
  }

  // ---------------------------------------------------------------------
  // Category tabs: `len` tabs, cyclic.

  /** The tabs' loop handling: below 0 wraps to the last tab, past the last
      tab wraps to the first. */
  function WrapIndex(i: int, len: int): (j: int)
    requires len > 0
    ensures -1 <= i <= len ==> 0 <= j < len
    ensures 0 <= i < len ==> j == i
    ensures -1 <= i <= len ==> j == i % len
  {
    if i < 0 then len - 1 else if i >= len then 0 else i
  }

  /** A press of an arrow on the tabs: pauses and steps one place cyclically. */
  function TabsNavigate(s: State, dir: Direction, len: int): (r: State)
    requires len > 0
    ensures r.paused && r.mounted == s.mounted && r.itemWidth == s.itemWidth
    ensures !Measured(s) ==> r.index == s.index
    ensures Measured(s) && 0 <= s.index < len ==>
      0 <= r.index < len && r.index == (if dir == Left then s.index - 1 else s.index + 1) % len
  {
    ScrollToIndex(Pause(s), WrapIndex(Step(s.index, dir), len))
  }

  /** One tick of the tabs' auto-advance interval: nothing while paused or
      unmounted, else one place forward, cyclically. */
  function TabsTick(s: State, len: int): (r: State)
    requires len > 0
    ensures s.paused || !Measured(s) ==> r == s
    ensures !s.paused && Measured(s) && 0 <= s.index < len ==> r.index == (s.index + 1) % len
    ensures r.paused == s.paused && r.mounted == s.mounted && r.itemWidth == s.itemWidth
  {
    if !s.paused && s.mounted then
      var next := s.index + 1;
      ScrollToIndex(s, if next >= len then 0 else next)
    else s
  }

  /** "Left" from the first tab reaches the last, "right" from the last
      reaches the first. */
  lemma TabsWrapAtEnds(s: State, len: int)
    requires len > 0 && Measured(s)
    ensures s.index == 0 ==> TabsNavigate(s, Left, len).index == len - 1
    ensures s.index == len - 1 ==> TabsNavigate(s, Right, len).index == 0
  {
  }

  /** On the tabs, "left" and "right" undo each other from every tab. */
  lemma TabsLeftRightInverse(s: State, len: int)
    requires len > 0 && Measured(s) && 0 <= s.index < len
    ensures TabsNavigate(TabsNavigate(s, Left, len), Right, len).index == s.index
    ensures TabsNavigate(TabsNavigate(s, Right, len), Left, len).index == s.index
  {
  }

  /** `len` auto-advance ticks on running tabs come back to the starting tab. */
  lemma {:induction false} TabsFullCycle(s: State, len: int, k: nat)
    requires len > 0 && Measured(s) && !s.paused && 0 <= s.index < len
    ensures TabsTicks(s, len, k).index == (s.index + k) % len
    ensures Measured(TabsTicks(s, len, k)) && !TabsTicks(s, len, k).paused
  {
    if k > 0 {
      TabsFullCycle(s, len, k - 1);
      var before := TabsTicks(s, len, k - 1);
      assert before.index == (s.index + k - 1) % len;
      ModSuccessor(s.index + k - 1, len);
    }
  }

  /** `k` auto-advance ticks of the tabs. */
  function TabsTicks(s: State, len: int, k: nat): State
    requires len > 0
  {
    if k == 0 then s else TabsTick(TabsTicks(s, len, k - 1), len)
  }

  lemma ModSuccessor(a: int, len: int)
    requires len > 0
    ensures ((a % len) + 1) % len == (a + 1) % len
  {
    var q := a / len;
    var r := a % len;
    assert a == q * len + r;
    if r + 1 < len {
      ModUnique(a + 1, len, q, r + 1);
      ModUnique(r + 1, len, 0, r + 1);
    } else {
      assert a + 1 == (q + 1) * len;
      ModUnique(a + 1, len, q + 1, 0);
      ModUnique(r + 1, len, 1, 0);
    }
  }

  /** Euclidean division has one quotient and remainder. */
  lemma ModUnique(x: int, d: int, q: int, r: int)
    requires d > 0 && 0 <= r < d && x == q * d + r
    ensures x % d == r
  {
    var q0 := x / d;
    var r0 := x % d;
    assert x == q0 * d + r0;
    MulDistributes(q, q0, d);
    if q > q0 {
      MulAtLeast(q - q0, d);
    } else if q < q0 {
      MulAtLeast(q0 - q, d);
    }
  }

  lemma MulDistributes(a: int, b: int, d: int)
    ensures (a - b) * d == a * d - b * d && (b - a) * d == b * d - a * d
  {
  }

  lemma {:induction false} MulAtLeast(k: int, d: int)
    requires k >= 1 && d > 0
    ensures k * d >= d
    decreases k
  {
    if k > 1 {
      MulAtLeast(k - 1, d);
      assert k * d == (k - 1) * d + d;
    }
  }
}

=== FILE: hot_deal_model.dfy ===
/** The hot-deal document: its status enumeration with the schema's default,
    and the fields the storefront and the admin panel read. */
module HotDealModel {
  import opened Wrappers
  import opened Http

  /** The schema's `enum: ['Active', 'Scheduled', 'Expired']`. */
  datatype DealStatus = Active | Scheduled | Expired

  function StatusName(st: DealStatus): string
  {
    match st
    case Active => "Active"
    case Scheduled => "Scheduled"
    case Expired => "Expired"
  }

  /** Reads a status name; `None` for any string outside the enumeration. */
  function ParseStatus(s: string): (r: Option<DealStatus>)
    ensures r.Some? ==> StatusName(r.value) == s
  {
    if s == "Active" then Some(Active)
    else if s == "Scheduled" then Some(Scheduled)
    else if s == "Expired" then Some(Expired)
    else None
  }

  /** Every status name reads back to its status. */
  lemma ParseStatusName(st: DealStatus)
    ensures ParseStatus(StatusName(st)) == Some(st)
  {
  }

  /** The status Mongoose stores for the value handed to `create`: the default
      'Active' when the field is absent, the value itself when it names a
      status, and a validation failure (`None`) for anything else. */
  function StatusOnSave(v: JsValue): (r: Option<DealStatus>)
    ensures v == Undefined ==> r == Some(Active)
    ensures r.Some? && v != Undefined ==> v == Str(StatusName(r.value))
    ensures (exists st :: v == Str(StatusName(st))) ==> r.Some?
  {
    match v
    case Undefined => Some(Active)
    case Str(s) => ParseStatus(s)
    case _ => None
  }

  /** A stored hot deal, with its dates as milliseconds since the epoch. */
  datatype HotDeal = HotDeal(
    id: string,
    name: string,
    description: string,
    productId: string,
    originalPrice: int,
    discountedPrice: int,
    discount: string,
    startDate: int,
    endDate: int,
    status: DealStatus)
}

=== FILE: hot_deals_api.dfy ===
/** The two hot-deal route handlers: the storefront API (GET list with a
    countdown, POST with a single combined required-field check) and the
    second API copy (POST with an ordered required-field loop that forces the
    status to Active). Product-id validity, Mongoose's `Number` cast and the
    validity of `new Date(x)` are parameters of the model. */
module HotDealsApi {
  import opened Wrappers
  import opened Seqs
  import opened Http
  import opened HotDealModel
  import opened TimeLeft

  /** The populated product of a deal. */
  datatype ProductRef = ProductRef(id: string, name: string, images: seq<string>, price: int, status: string)

  /** A deal as the query returns it: the populated product is absent when
      the referenced product no longer exists. */
  datatype DealDoc = DealDoc(deal: HotDeal, product: Option<ProductRef>)

  /** One element of the GET reply. */
  datatype FormattedDeal = FormattedDeal(deal: HotDeal, product: ProductRef, timeLeft: string)

  predicate HasProduct(doc: DealDoc)
  {
    doc.product.Some?
  }

  /** Forgets the formatting: the document a reply element came from. */
  function Source(f: FormattedDeal): DealDoc
  {
    DealDoc(f.deal, Some(f.product))
  }

  function Sources(fs: seq<FormattedDeal>): (docs: seq<DealDoc>)
    ensures |docs| == |fs|
  {
    if fs == [] then [] else [Source(fs[0])] + Sources(fs[1..])
  }

  /** GET: drops every deal whose product is gone and formats the rest, in
      the query's order, with the countdown computed at `now`. */
  function ListDeals(docs: seq<DealDoc>, now: int): (r: seq<FormattedDeal>)
    ensures Sources(r) == Filter(docs, HasProduct)
    ensures |r| <= |docs|
    ensures forall i :: 0 <= i < |r| ==> r[i].timeLeft == CalculateTimeLeft(r[i].deal.endDate, now)
  {
    if docs == [] then []
    else
      var rest := ListDeals(docs[1..], now);
      match docs[0].product
      case None => rest
      case Some(p) => [FormattedDeal(docs[0].deal, p, CalculateTimeLeft(docs[0].deal.endDate, now))] + rest
  }

  /** The fields the first route requires, all checked in one condition. */
  const RequiredFields: seq<string> :=
    ["name", "product", "originalPrice", "discountedPrice", "discount", "startDate", "endDate"]

  predicate AllPresent(body: Body, fields: seq<string>)
  {
    forall i :: 0 <= i < |fields| ==> Truthy(Field(body, fields[i]))
  }

  /** `status || 'Active'`: the status handed to `create`. */
  function StatusGiven(body: Body): (v: JsValue)
    ensures Truthy(v)
    ensures Truthy(Field(body, "status")) ==> v == Field(body, "status")
  {
    if Truthy(Field(body, "status")) then Field(body, "status") else Str("Active")
  }

  /** The casts `HotDeal.create` applies to the schema's typed paths: name
      and discount to `String`, the two prices to `Number` (`toNumber`, with
      `None` for a failed cast), and the two `new Date(x)` values to `Date`,
      which fails for an invalid date (`validDate` false). A failed cast
      throws, which both handlers answer with 500. */
  predicate CastsOnCreate(body: Body, toNumber: JsValue -> Option<int>, validDate: JsValue -> bool)
  {
    && CastToString(Field(body, "name")).Some?
    && CastToString(Field(body, "discount")).Some?
    && toNumber(Field(body, "originalPrice")).Some?
    && toNumber(Field(body, "discountedPrice")).Some?
    && validDate(Field(body, "startDate"))
    && validDate(Field(body, "endDate"))
  }

  /** A hot deal as handed to `create`; dates stay as the request gave them. */
  datatype NewHotDeal = NewHotDeal(
    name: JsValue,
    description: JsValue,
    product: JsValue,
    originalPrice: JsValue,
    discountedPrice: JsValue,
    discount: JsValue,
    startDate: JsValue,
    endDate: JsValue,
    status: DealStatus)

  /** POST of the first route: 400 when a required field is falsy (so a price
      of 0 is rejected), then 400 for an invalid product id, then the schema's
      casts and checks (description required, status in the enumeration) as a
      500, else the created deal with status code 200. */
  function CreateDeal(body: Body, validId: JsValue -> bool, toNumber: JsValue -> Option<int>, validDate: JsValue -> bool): (r: Reply<NewHotDeal>)
    ensures r.Ok? <==> AllPresent(body, RequiredFields) && validId(Field(body, "product"))
                       && CastsOnCreate(body, toNumber, validDate)
                       && RequiredStringPresent(Field(body, "description"))
                       && StatusOnSave(StatusGiven(body)).Some?
    ensures r.Error? && AllPresent(body, RequiredFields) && validId(Field(body, "product")) ==>
      r == Error(500, "Failed to create hot deal")
    ensures r.Ok? ==> r.value.status == StatusOnSave(StatusGiven(body)).value
    ensures !AllPresent(body, RequiredFields) ==> r == Error(400, "Missing required fields")
    ensures AllPresent(body, RequiredFields) && !validId(Field(body, "product")) ==>
      r == Error(400, "Invalid product ID")
    ensures r.Ok? ==> r.code == 200 && AllPresent(body, RequiredFields) && validId(Field(body, "product"))
    ensures r.Ok? && Truthy(Field(body, "status")) ==> Field(body, "status") == Str(StatusName(r.value.status))
    ensures r.Ok? && !Truthy(Field(body, "status")) ==> r.value.status == Active
    ensures r.Ok? ==> r.value == NewHotDeal(
      Field(body, "name"), Field(body, "description"), Field(body, "product"),
      Field(body, "originalPrice"), Field(body, "discountedPrice"), Field(body, "discount"),
      Field(body, "startDate"), Field(body, "endDate"), StatusOnSave(StatusGiven(body)).value)
  {
    if !AllPresent(body, RequiredFields) then Error(400, "Missing required fields")
    else if !validId(Field(body, "product")) then Error(400, "Invalid product ID")
    else if !CastsOnCreate(body, toNumber, validDate) then Error(500, "Failed to create hot deal")
    else
      match StatusOnSave(StatusGiven(body))
      case None => Error(500, "Failed to create hot deal")
      case Some(st) =>
        if !RequiredStringPresent(Field(body, "description")) then Error(500, "Failed to create hot deal")
        else Ok(200, NewHotDeal(
          Field(body, "name"), Field(body, "description"), Field(body, "product"),
          Field(body, "originalPrice"), Field(body, "discountedPrice"), Field(body, "discount"),
          Field(body, "startDate"), Field(body, "endDate"), st))
  }

  /** A zero price is indistinguishable from a missing one. */
  lemma ZeroPriceRejected(body: Body, validId: JsValue -> bool, toNumber: JsValue -> Option<int>, validDate: JsValue -> bool)
    requires Field(body, "originalPrice") == Num(0)
    ensures CreateDeal(body, validId, toNumber, validDate) == Error(400, "Missing required fields")
  {
    assert RequiredFields[2] == "originalPrice";
  }

  /** The product-id check is only consulted once every required field is
      present: with a field missing, the verdict is the same for any id test. */
  lemma IdCheckAfterRequired(body: Body, validId1: JsValue -> bool, validId2: JsValue -> bool,
                             toNumber: JsValue -> Option<int>, validDate: JsValue -> bool)
    requires !AllPresent(body, RequiredFields)
    ensures CreateDeal(body, validId1, toNumber, validDate) == CreateDeal(body, validId2, toNumber, validDate)
  {
  }

  /** The fields the second route requires, in the order it checks them. */
  const OrderedRequiredFields: seq<string> :=
    ["name", "description", "product", "originalPrice", "discountedPrice", "discount", "startDate", "endDate"]

  /** The required-field loop: the first falsy field in checking order, if any. */
  method FirstMissingField(body: Body) returns (missing: Option<string>)
    ensures missing.None? <==> AllPresent(body, OrderedRequiredFields)
    ensures missing.Some? ==>
      exists k :: 0 <= k < |OrderedRequiredFields|
        && OrderedRequiredFields[k] == missing.value
        && !Truthy(Field(body, OrderedRequiredFields[k]))
        && AllPresent(body, OrderedRequiredFields[..k])
  {
    var fields := OrderedRequiredFields;
    var i := 0;
    while i < |fields|
      invariant 0 <= i <= |fields|
      invariant AllPresent(body, fields[..i])
    {
      if !Truthy(Field(body, fields[i])) {
        return Some(fields[i]);
      }
      assert fields[..i + 1] == fields[..i] + [fields[i]];
      i := i + 1;
    }
    assert fields[..i] == fields;
    return None;
  }

  /** POST of the second route: the first falsy required field is named in a
      400, then an invalid product id is a 400; a failed cast on `create` is a
      500; otherwise the deal is created with status Active whatever the body
      says, answered with 201. */
  method CreateDealForcedActive(body: Body, validId: JsValue -> bool, toNumber: JsValue -> Option<int>, validDate: JsValue -> bool)
    returns (r: Reply<NewHotDeal>)
    ensures r.Ok? <==> AllPresent(body, OrderedRequiredFields) && validId(Field(body, "product"))
                       && CastsOnCreate(body, toNumber, validDate) && CastToString(Field(body, "description")).Some?
    ensures r.Error? && AllPresent(body, OrderedRequiredFields) && validId(Field(body, "product")) ==>
      r == Error(500, "Failed to create hot deal")
    ensures r.Ok? ==> r.code == 201 && r.value.status == Active
    ensures r.Ok? ==> r.value == NewHotDeal(
      Field(body, "name"), Field(body, "description"), Field(body, "product"),
      Field(body, "originalPrice"), Field(body, "discountedPrice"), Field(body, "discount"),
      Field(body, "startDate"), Field(body, "endDate"), Active)
    ensures !AllPresent(body, OrderedRequiredFields) ==>
      exists k :: 0 <= k < |OrderedRequiredFields|
        && r == Error(400, "Missing required field: " + OrderedRequiredFields[k])
        && !Truthy(Field(body, OrderedRequiredFields[k]))
        && AllPresent(body, OrderedRequiredFields[..k])
    ensures AllPresent(body, OrderedRequiredFields) && !validId(Field(body, "product")) ==>
      r == Error(400, "Invalid product ID")
  {
    var missing := FirstMissingField(body);
    if missing.Some? {
      return Error(400, "Missing required field: " + missing.value);
    }
    if !validId(Field(body, "product")) {
      return Error(400, "Invalid product ID");
    }
    if !CastsOnCreate(body, toNumber, validDate) || CastToString(Field(body, "description")).None? {
      return Error(500, "Failed to create hot deal");
    }
    r := Ok(201, NewHotDeal(
      Field(body, "name"), Field(body, "description"), Field(body, "product"),
      Field(body, "originalPrice"), Field(body, "discountedPrice"), Field(body, "discount"),
      Field(body, "startDate"), Field(body, "endDate"), Active));
  }
}

=== FILE: http.dfy ===
/** The slice of JavaScript values and HTTP replies the route handlers see:
    a parsed JSON request body and the `NextResponse.json` they answer with. */
module Http {
  import opened Wrappers
  import opened Text

  /** A JSON value as `request.json()` yields it; numbers are integers here. */
  datatype JsValue =
    | Undefined
    | Null
    | Bool(b: bool)
    | Num(n: int)
    | Str(s: string)
    | Arr(items: seq<JsValue>)

  /** JavaScript truthiness: `undefined`, `null`, `false`, `0` and `""` are falsy. */
  predicate Truthy(v: JsValue)
  {
    match v
    case Undefined => false
    case Null => false
    case Bool(b) => b
    case Num(n) => n != 0
    case Str(s) => s != []
    case Arr(_) => true
  }

  /** A parsed JSON object body. */
  type Body = map<string, JsValue>

  /** `body[key]`, which is `undefined` for a key the body lacks. */
  function Field(body: Body, key: string): JsValue
  {
    if key in body then body[key] else Undefined
  }

  /** A JSON reply with its HTTP status code. */
  datatype Reply<T> = Ok(code: int, value: T) | Error(code: int, message: string)

  /** Mongoose's cast of a value to a `String` path: strings as they are,
      numbers and booleans as their text; `undefined`, `null` and arrays do
      not give a string. */
  function CastToString(v: JsValue): (r: Option<string>)
    ensures v.Str? ==> r == Some(v.s)
    ensures r.None? <==> (v.Undefined? || v.Null? || v.Arr?)
    ensures v.Num? && v.n >= 0 ==> r == Some(NatToString(v.n))
  {
    match v
    case Str(s) => Some(s)
    case Num(n) => Some(if n < 0 then "-" + NatToString(-n) else NatToString(n))
    case Bool(b) => Some(if b then "true" else "false")
    case _ => None
  }

  /** The schema's `required` check on a `String` path: the value casts to a
      string and that string is not empty. */
  predicate RequiredStringPresent(v: JsValue)
  {
    CastToString(v).Some? && CastToString(v).value != ""
  }
}

=== FILE: mock_auth.dfy ===
/** The client-side mock authentication context: an in-memory user list and
    the signed-in user, with login, registration and logout. */
module MockAuth {
  import opened Wrappers
  import opened Text

  /** A user of the mock list, password included. */
  datatype MockUser = MockUser(id: string, name: string, email: string, password: string, role: string)

  /** The signed-in user as the context exposes it, without a password. */
  datatype User = User(id: string, name: string, email: string, role: string)

  /** The shared user list and the current user (`null` when signed out). */
  datatype AuthState = AuthState(users: seq<MockUser>, user: Option<User>)

  /** The demo administrator every session starts with. */
  const InitialUsers: seq<MockUser> := [MockUser("1", "Admin User", "admin@example.com", "password123", "admin")]

  /** A fresh provider with nothing restored from local storage. */
  const Initial: AuthState := AuthState(InitialUsers, None)

  function WithoutPassword(u: MockUser): (r: User)
    ensures r.id == u.id && r.name == u.name && r.email == u.email && r.role == u.role
  {
    User(u.id, u.name, u.email, u.role)
  }

  /** `isAuthenticated`: `!!user`. */
  predicate IsAuthenticated(s: AuthState)
  {
    s.user.Some?
  }

  predicate Credentials(u: MockUser, email: string, password: string)
  {
    EqualsIgnoreCase(u.email, email) && u.password == password
  }

  /** The index of the first user whose email matches case-insensitively and
      whose password matches exactly (`Array.prototype.find`). */
  function FindLogin(users: seq<MockUser>, email: string, password: string): (r: Option<nat>)
    ensures r.None? <==> forall i :: 0 <= i < |users| ==> !Credentials(users[i], email, password)
    ensures r.Some? ==> r.value < |users| && Credentials(users[r.value], email, password)
    ensures r.Some? ==> forall i :: 0 <= i < r.value ==> !Credentials(users[i], email, password)
  {
    if users == [] then None
    else if Credentials(users[0], email, password) then Some(0)
    else
      match FindLogin(users[1..], email, password)
      case None => None
      case Some(k) => Some(k + 1)
  }

  /** A context call's resulting state, and the error it throws, if any. */
  datatype Step = Step(state: AuthState, error: Option<string>)

  const InvalidLogin := "Invalid email or password"
  const EmailTaken := "Email already in use"

  /** `login`: signs in as the first matching user, minus the password; a
      failed attempt throws and changes nothing. The user list never changes. */
  function Login(s: AuthState, email: string, password: string): (r: Step)
    ensures r.error.None? <==> exists i :: 0 <= i < |s.users| && Credentials(s.users[i], email, password)
    ensures r.error.Some? ==> r == Step(s, Some(InvalidLogin))
    ensures r.error.None? ==>
      && r.state.users == s.users
      && (exists i :: 0 <= i < |s.users| && Credentials(s.users[i], email, password)
           && (forall j :: 0 <= j < i ==> !Credentials(s.users[j], email, password))
           && r.state.user == Some(WithoutPassword(s.users[i])))
  {
    match FindLogin(s.users, email, password)
    case None => Step(s, Some(InvalidLogin))
    case Some(i) => Step(s.(user := Some(WithoutPassword(s.users[i]))), None)
  }

  predicate EmailInUse(users: seq<MockUser>, email: string)
  {
    exists i :: 0 <= i < |users| && EqualsIgnoreCase(users[i].email, email)
  }

  /** `register`: refuses an email already in the list (ignoring case);
      otherwise appends an administrator whose id is the new list length, and
      does not sign in. */
  function Register(s: AuthState, name: string, email: string, password: string): (r: Step)
    ensures EmailInUse(s.users, email) <==> r.error.Some?
    ensures r.error.Some? ==> r == Step(s, Some(EmailTaken))
    ensures r.error.None? ==>
      && r.state.user == s.user
      && |r.state.users| == |s.users| + 1
      && r.state.users[..|s.users|] == s.users
      && r.state.users[|s.users|] == MockUser(NatToString(|s.users| + 1), name, email, password, "admin")
  {
    if EmailInUse(s.users, email) then Step(s, Some(EmailTaken))
    else
      var added := MockUser(NatToString(|s.users| + 1), name, email, password, "admin");
      Step(s.(users := s.users + [added]), None)
  }

  /** `logout`: no user; the list is untouched. */
  function Logout(s: AuthState): (r: AuthState)
    ensures !IsAuthenticated(r) && r.users == s.users
  {
    s.(user := None)
  }

  /** The admin layout's token check: a successful validation keeps the
      session; a failed one, or a fetch that throws (`responseOk` false),
      logs out. */
  function AfterValidation(s: AuthState, responseOk: bool): (r: AuthState)
    ensures responseOk ==> r == s
    ensures !responseOk ==> !IsAuthenticated(r)
    ensures IsAuthenticated(r) ==> responseOk && r == s
    ensures r.users == s.users
  {
    if responseOk then s else Logout(s)
  }

  /** No two users share an email, ignoring case. */
  predicate DistinctEmails(users: seq<MockUser>)
  {
    forall i, j :: 0 <= i < j < |users| ==> Lower(users[i].email) != Lower(users[j].email)
  }

  /** User `i` has id `i + 1`, as registration assigns them. */
  predicate SequentialIds(users: seq<MockUser>)
  {
    forall i :: 0 <= i < |users| ==> users[i].id == NatToString(i + 1)
  }

  predicate Valid(s: AuthState)
  {
    DistinctEmails(s.users) && SequentialIds(s.users)
  }

  lemma InitialValid()
    ensures Valid(Initial)
  {
    assert NatToString(1) == "1";
  }

  /** Registration keeps emails distinct and ids sequential; login and logout
      leave the list alone. */
  lemma RegisterKeepsValid(s: AuthState, name: string, email: string, password: string)
    requires Valid(s)
    ensures Valid(Register(s, name, email, password).state)
  {
    var r := Register(s, name, email, password);
    if r.error.None? {
      var us := r.state.users;
      forall i, j | 0 <= i < j < |us|
        ensures Lower(us[i].email) != Lower(us[j].email)
      {
        if j == |s.users| {
          assert !EqualsIgnoreCase(s.users[i].email, email);
        } else {
          assert us[i] == s.users[i] && us[j] == s.users[j];
        }
      }
      forall i | 0 <= i < |us|
        ensures us[i].id == NatToString(i + 1)
      {
        if i < |s.users| {
          assert us[i] == s.users[i];
        }
      }
    }
  }

  /** Ids are distinct in a valid list. */
  lemma IdsDistinct(s: AuthState, i: int, j: int)
    requires Valid(s) && 0 <= i < j < |s.users|
    ensures s.users[i].id != s.users[j].id
  {
    if s.users[i].id == s.users[j].id {
      NatToStringInjective(i + 1, j + 1);
    }
  }

  /** A freshly registered user can sign in with the same email and password,
      and is signed in as that new account. */
  lemma RegisterThenLogin(s: AuthState, name: string, email: string, password: string)
    requires Register(s, name, email, password).error.None?
    ensures var after := Register(s, name, email, password).state;
      Login(after, email, password) ==
        Step(after.(user := Some(User(NatToString(|s.users| + 1), name, email, "admin"))), None)
  {
    var after := Register(s, name, email, password).state;
    var n := |s.users|;
    assert Credentials(after.users[n], email, password);
    var r := Login(after, email, password);
    var i :| 0 <= i < |after.users| && Credentials(after.users[i], email, password)
             && (forall j :: 0 <= j < i ==> !Credentials(after.users[j], email, password))
             && r.state.user == Some(WithoutPassword(after.users[i]));
  }

  /** Logging out after logging in returns to the signed-out state. */
  lemma LoginLogoutRestores(s: AuthState, email: string, password: string)
    requires !IsAuthenticated(s)
    ensures Logout(Login(s, email, password).state) == s
  {
  }
}

=== FILE: price_list.dfy ===
/** The price-list store: a sequence of price-list images in creation order
    (oldest first), the two write routes that deactivate earlier lists, and
    the lookup of the list to show. */
module PriceListStore {
  import opened Wrappers
  import opened Http

  /** The schema's `enum: ['Active', 'Inactive']`. */
  datatype ListStatus = Active | Inactive

  datatype PriceList = PriceList(imageUrl: string, status: ListStatus)

  /** The collection, oldest record first. */
  type Store = seq<PriceList>

  /** No two records are Active at once. */
  predicate AtMostOneActive(store: Store)
  {
    forall i, j :: 0 <= i < j < |store| && store[i].status == Active ==> store[j].status != Active
  }

  /** Exactly one record is Active, and it is the newest one. */
  predicate OnlyNewestActive(store: Store)
  {
    && store != []
    && store[|store| - 1].status == Active
    && forall i :: 0 <= i < |store| - 1 ==> store[i].status == Inactive
  }

  /** `updateMany({ status: 'Active' }, { status: 'Inactive' })`: every record
      ends Inactive and keeps its image. */
  function DeactivateAll(store: Store): (r: Store)
    ensures |r| == |store|
    ensures forall i :: 0 <= i < |r| ==> r[i].imageUrl == store[i].imageUrl && r[i].status == Inactive
  {
    seq(|store|, i requires 0 <= i < |store| => store[i].(status := Inactive))
  }

  /** The status stored for the body's `status`: the schema default Active
      when absent, the named status, or a validation failure. */
  function StatusOnCreate(v: JsValue): (r: Option<ListStatus>)
    ensures v == Undefined ==> r == Some(Active)
    ensures v == Str("Active") <==> v != Undefined && r == Some(Active)
    ensures v == Str("Inactive") <==> r == Some(Inactive)
  {
    match v
    case Undefined => Some(Active)
    case Str(s) => if s == "Active" then Some(Active) else if s == "Inactive" then Some(Inactive) else None
    case _ => None
  }

  /** The store after a request and the reply sent. */
  datatype Outcome = Outcome(store: Store, reply: Reply<PriceList>)

  const MissingImage: Reply<PriceList> := Error(400, "Image URL is required")

  /** `PriceList.create`: appends the record, or fails validation with the
      store as it stands. */
  function Create(store: Store, imageUrl: JsValue, status: Option<ListStatus>, failure: string): (o: Outcome)
    ensures |o.store| >= |store|
    ensures o.reply.Ok? <==> RequiredStringPresent(imageUrl) && status.Some?
    ensures o.reply.Ok? ==> o.reply.value == PriceList(CastToString(imageUrl).value, status.value)
    ensures o.reply.Ok? ==> o.store == store + [o.reply.value] && o.reply.code == 200
    ensures o.reply.Error? ==> o == Outcome(store, Error(500, failure))
  {
    if RequiredStringPresent(imageUrl) && status.Some? then
      var record := PriceList(CastToString(imageUrl).value, status.value);
      Outcome(store + [record], Ok(200, record))
    else Outcome(store, Error(500, failure))
  }

  /** POST /api/price-list as written: earlier lists are deactivated only when
      the body says `status: 'Active'`, then the body is stored. */
  function Post(store: Store, body: Body): (o: Outcome)
    ensures |o.store| >= |store|
    ensures !Truthy(Field(body, "imageUrl")) ==> o == Outcome(store, MissingImage)
    ensures o.reply.Ok? <==> Truthy(Field(body, "imageUrl")) && CastToString(Field(body, "imageUrl")).Some?
                             && StatusOnCreate(Field(body, "status")).Some?
    ensures o.reply.Ok? ==>
      o.reply.value == PriceList(CastToString(Field(body, "imageUrl")).value, StatusOnCreate(Field(body, "status")).value)
    ensures o.reply.Ok? ==> |o.store| == |store| + 1 && o.store[|store|] == o.reply.value
    ensures o.reply.Ok? && Field(body, "status") == Str("Active") ==> OnlyNewestActive(o.store)
    ensures Truthy(Field(body, "imageUrl")) && Field(body, "status") == Str("Active") ==>
      o.store[..|store|] == DeactivateAll(store)
    ensures Truthy(Field(body, "imageUrl")) && o.reply.Error? ==>
      o == Outcome(if Field(body, "status") == Str("Active") then DeactivateAll(store) else store,
                   Error(500, "Failed to create price list"))
    ensures Field(body, "status") != Str("Active") ==> o.store[..|store|] == store
  {
    if !Truthy(Field(body, "imageUrl")) then Outcome(store, MissingImage)
    else
      var status := Field(body, "status");
      var before := if status == Str("Active") then DeactivateAll(store) else store;
      Create(before, Field(body, "imageUrl"), StatusOnCreate(status), "Failed to create price list")
  }

  /** Counterexample: a POST without a status skips the deactivation, yet the
      schema default stores the new list as Active, so two lists are Active. */
  lemma PostWithoutStatusLeavesTwoActive()
    ensures var store := [PriceList("old.png", Active)];
      var o := Post(store, map["imageUrl" := Str("new.png")]);
      && o.store == [PriceList("old.png", Active), PriceList("new.png", Active)]
      && !AtMostOneActive(o.store)
  {
    var store := [PriceList("old.png", Active)];
    var body := map["imageUrl" := Str("new.png")];
    assert Field(body, "status") == Undefined;
    var o := Post(store, body);
    assert o.store[0].status == Active && o.store[1].status == Active;
  }

  /** POST /api/price-list with the deactivation keyed on the status the
      record will actually get, default included. */
  function PostCorrected(store: Store, body: Body): (o: Outcome)
    ensures |o.store| >= |store|
    ensures !Truthy(Field(body, "imageUrl")) ==> o == Outcome(store, MissingImage)
    ensures o.reply.Ok? <==> Truthy(Field(body, "imageUrl")) && CastToString(Field(body, "imageUrl")).Some?
                             && StatusOnCreate(Field(body, "status")).Some?
    ensures o.reply.Ok? ==>
      o.reply.value == PriceList(CastToString(Field(body, "imageUrl")).value, StatusOnCreate(Field(body, "status")).value)
    ensures o.reply.Ok? ==> |o.store| == |store| + 1 && o.store[|store|] == o.reply.value
    ensures o.reply.Ok? && o.reply.value.status == Active ==> OnlyNewestActive(o.store)
    ensures Truthy(Field(body, "imageUrl")) && StatusOnCreate(Field(body, "status")) == Some(Active) ==>
      o.store[..|store|] == DeactivateAll(store)
    ensures Truthy(Field(body, "imageUrl")) && o.reply.Error? ==>
      o == Outcome(if StatusOnCreate(Field(body, "status")) == Some(Active) then DeactivateAll(store) else store,
                   Error(500, "Failed to create price list"))
    ensures StatusOnCreate(Field(body, "status")) != Some(Active) ==> o.store[..|store|] == store
  {
    if !Truthy(Field(body, "imageUrl")) then Outcome(store, MissingImage)
    else
      var status := StatusOnCreate(Field(body, "status"));
      var before := if status == Some(Active) then DeactivateAll(store) else store;
      Create(before, Field(body, "imageUrl"), status, "Failed to create price list")
  }

  /** The corrected POST keeps at most one list Active. */
  lemma PostCorrectedKeepsOneActive(store: Store, body: Body)
    requires AtMostOneActive(store)
    ensures AtMostOneActive(PostCorrected(store, body).store)
  {
    var o := PostCorrected(store, body);
    if o.reply.Ok? && o.reply.value.status == Inactive {
      assert o.store == o.store[..|store|] + [o.reply.value];
    }
  }

  /** POST /api/price-list/upload: always deactivates every earlier list, then
      stores the image as a new Active list whatever status the body gives. */
  function Upload(store: Store, body: Body): (o: Outcome)
    ensures |o.store| >= |store|
    ensures !Truthy(Field(body, "imageUrl")) ==> o == Outcome(store, MissingImage)
    ensures o.reply.Ok? <==> Truthy(Field(body, "imageUrl")) && CastToString(Field(body, "imageUrl")).Some?
    ensures o.reply.Ok? ==> o.reply.value == PriceList(CastToString(Field(body, "imageUrl")).value, Active)
    ensures Truthy(Field(body, "imageUrl")) && o.reply.Error? ==>
      o == Outcome(DeactivateAll(store), Error(500, "Failed to upload price list"))
    ensures o.reply.Ok? ==> |o.store| == |store| + 1 && OnlyNewestActive(o.store)
    ensures o.reply.Ok? ==> o.reply.value.status == Active && o.store[|store|] == o.reply.value
    ensures Truthy(Field(body, "imageUrl")) ==>
      forall i :: 0 <= i < |store| ==> o.store[i].imageUrl == store[i].imageUrl
  {
    if !Truthy(Field(body, "imageUrl")) then Outcome(store, MissingImage)
    else Create(DeactivateAll(store), Field(body, "imageUrl"), Some(Active), "Failed to upload price list")
  }

  /** An upload, accepted or not, leaves at most one list Active. */
  lemma UploadKeepsOneActive(store: Store, body: Body)
    requires AtMostOneActive(store)
    ensures AtMostOneActive(Upload(store, body).store)
  {
  }

  /** A string image URL is always accepted by an upload. */
  lemma UploadAcceptsStringUrl(store: Store, body: Body, url: string)
    requires Field(body, "imageUrl") == Str(url) && url != ""
    ensures Upload(store, body).reply == Ok(200, PriceList(url, Active))
    ensures Upload(store, body).store == DeactivateAll(store) + [PriceList(url, Active)]
  {
  }

  /** GET /api/price-list/active: the newest Active list, else the newest list
      of any status, else nothing. */
  method ActiveOrNewest(store: Store) returns (r: Option<PriceList>)
    ensures r.None? <==> store == []
    ensures (exists i :: 0 <= i < |store| && store[i].status == Active) ==>
      r.Some? && r.value.status == Active
    ensures r.Some? && r.value.status == Active ==>
      exists i :: 0 <= i < |store| && store[i] == r.value
        && forall j :: i < j < |store| ==> store[j].status != Active
    ensures store != [] && (forall i :: 0 <= i < |store| ==> store[i].status != Active) ==>
      r == Some(store[|store| - 1])
  {
    var k := |store|;
    while k > 0
      invariant 0 <= k <= |store|
      invariant forall j :: k <= j < |store| ==> store[j].status != Active
    {
      if store[k - 1].status == Active {
        return Some(store[k - 1]);
      }
      k := k - 1;
    }
    if store == [] {
      return None;
    }
    return Some(store[|store| - 1]);
  }

  /** Requests a store can see. */
  datatype Request = PostRequest(body: Body) | UploadRequest(body: Body)

  function Apply(store: Store, req: Request): Store
  {
    match req
    case PostRequest(body) => PostCorrected(store, body).store
    case UploadRequest(body) => Upload(store, body).store
  }

  function ApplyAll(store: Store, reqs: seq<Request>): Store
    decreases |reqs|
  {
    if reqs == [] then store else ApplyAll(Apply(store, reqs[0]), reqs[1..])
  }

  /** From a store with at most one Active list, any run of corrected POSTs and uploads leaves at
      most one list Active, so the lookup's choice is never ambiguous. */
  lemma {:induction false} StoreKeepsOneActive(store: Store, reqs: seq<Request>)
    requires AtMostOneActive(store)
    ensures AtMostOneActive(ApplyAll(store, reqs))
    decreases |reqs|
  {
    if reqs != [] {
      var next := Apply(store, reqs[0]);
      match reqs[0] {
        case PostRequest(body) => PostCorrectedKeepsOneActive(store, body);
        case UploadRequest(body) => UploadKeepsOneActive(store, body);
      }
      StoreKeepsOneActive(next, reqs[1..]);
    }
  }
}

=== FILE: product_form.dfy ===
/** The admin "new product" form: the uploaded image list and what submitting
    sends to the products API. */
module ProductForm {
  import opened Wrappers
  import opened Http
  import opened ProductsApi

  /** Every upload in a batch succeeded. */
  predicate AllUploaded(results: seq<Option<string>>)
  {
    forall i :: 0 <= i < |results| ==> results[i].Some?
  }

  /** The URLs of a batch in which every upload succeeded, in file order. */
  function Urls(results: seq<Option<string>>): (urls: seq<string>)
    requires AllUploaded(results)
    ensures |urls| == |results|
    ensures forall i :: 0 <= i < |results| ==> urls[i] == results[i].value
  {
    seq(|results|, i requires 0 <= i < |results| => results[i].value)
  }

  /** `handleImageUpload`: with no files nothing happens; the batch is
      all-or-nothing (`Promise.all`), so a single failed upload appends no URL;
      otherwise every new URL follows the existing images, in file order. */
  function AfterUpload(images: seq<string>, results: seq<Option<string>>): (r: seq<string>)
    ensures !AllUploaded(results) ==> r == images
    ensures AllUploaded(results) ==> |r| == |images| + |results| && r[..|images|] == images
    ensures AllUploaded(results) ==> forall i :: 0 <= i < |results| ==> r[|images| + i] == results[i].value
  {
    if results == [] || !AllUploaded(results) then images else images + Urls(results)
  }

  /** `removeImage(index)`: keeps every image whose position differs. */
  function RemoveImage(images: seq<string>, index: int): (r: seq<string>)
    ensures !(0 <= index < |images|) ==> r == images
    ensures 0 <= index < |images| ==> |r| == |images| - 1
    ensures 0 <= index < |images| ==> forall j :: 0 <= j < |r| ==> r[j] == if j < index then images[j] else images[j + 1]
  {
    if 0 <= index < |images| then images[..index] + images[index + 1..] else images
  }

  /** Removing the image a one-file upload appended restores the list. */
  lemma RemoveUndoesUpload(images: seq<string>, url: string)
    ensures RemoveImage(AfterUpload(images, [Some(url)]), |images|) == images
  {
    var r := RemoveImage(AfterUpload(images, [Some(url)]), |images|);
    assert |r| == |images|;
    assert forall j :: 0 <= j < |r| ==> r[j] == images[j];
  }

  /** The image list as a JSON array of strings. */
  function ImagesValue(images: seq<string>): (v: JsValue)
    ensures v.Arr? && |v.items| == |images|
    ensures forall i :: 0 <= i < |images| ==> v.items[i] == Str(images[i])
  {
    Arr(seq(|images|, i requires 0 <= i < |images| => Str(images[i])))
  }

  /** The form inputs: `formData.get(key)` is the text typed, or null. */
  type Form = map<string, string>

  function Get(form: Form, key: string): JsValue
  {
    if key in form then Str(form[key]) else Null
  }

  /** `Number(x)` on a form value, as JSON carries it: NaN becomes null. */
  function NumberField(form: Form, key: string, toNumber: JsValue -> Option<int>): JsValue
  {
    match toNumber(Get(form, key))
    case Some(n) => Num(n)
    case None => Null
  }

  datatype Submission = Rejected(message: string) | Sent(payload: Body)

  const NoImages := "Please upload at least one image"

  /** `handleSubmit`: with no image nothing is sent; otherwise the payload
      carries the form fields, the current image list and status 'In Stock'. */
  function Submit(form: Form, images: seq<string>, toNumber: JsValue -> Option<int>): (s: Submission)
    ensures images == [] <==> s == Rejected(NoImages)
    ensures s.Sent? ==> Field(s.payload, "images") == ImagesValue(images)
    ensures s.Sent? ==> Field(s.payload, "status") == Str("In Stock")
    ensures s.Sent? ==> Field(s.payload, "description") == Get(form, "description")
                        && Field(s.payload, "name") == Get(form, "name")
  {
    if images == [] then Rejected(NoImages)
    else
      Sent(map[
        "name" := Get(form, "name"),
        "category" := Get(form, "category"),
        "price" := NumberField(form, "price", toNumber),
        "stock" := NumberField(form, "stock", toNumber),
        "description" := Get(form, "description"),
        "minOrder" := Get(form, "minOrder"),
        "images" := ImagesValue(images),
        "status" := Str("In Stock")])
  }

  /** A form the API accepts, under the schema the handler expects, yields a
      product with status 'In Stock', the uploaded images and no stock field. */
  lemma SubmittedProductInStock(form: Form, images: seq<string>, toNumber: JsValue -> Option<int>,
                                catalog: Catalog, newId: string, apiNumber: JsValue -> Option<int>)
    requires Submit(form, images, toNumber).Sent?
    requires PostCorrected(catalog, Submit(form, images, toNumber).payload, newId, apiNumber).reply.Ok?
    ensures var p := PostCorrected(catalog, Submit(form, images, toNumber).payload, newId, apiNumber).reply.value;
      && p.doc.status == Str("In Stock")
      && p.doc.images == ImagesValue(images)
  {
    var payload := Submit(form, images, toNumber).payload;
    assert Field(payload, "status") == Str("In Stock");
    assert Field(payload, "images") == ImagesValue(images);
  }
}

=== FILE: products_api.dfy ===
/** The products API: listing or fetching one product, and creating a product
    from the admin form's JSON body. A product document is a map from field
    names to values; what a save keeps of it is decided by the schema. */
module ProductsApi {
  import opened Wrappers
  import opened Text
  import opened Http

  /** The fields a product document can hold. */
  datatype Path = NamePath | CategoryPath | PricePath | DescriptionPath | MinOrderPath | ImagesPath | StatusPath | FeaturedPath

  /** A product document; `Undefined` marks a field the document lacks. */
  datatype Doc = Doc(
    name: JsValue,
    category: JsValue,
    price: JsValue,
    description: JsValue,
    minOrder: JsValue,
    images: JsValue,
    status: JsValue,
    isFeatured: JsValue)

  /** The value a document holds at a path. */
  function At(d: Doc, p: Path): JsValue
  {
    match p
    case NamePath => d.name
    case CategoryPath => d.category
    case PricePath => d.price
    case DescriptionPath => d.description
    case MinOrderPath => d.minOrder
    case ImagesPath => d.images
    case StatusPath => d.status
    case FeaturedPath => d.isFeatured
  }

  predicate Has(d: Doc, p: Path)
  {
    At(d, p) != Undefined
  }

  /** A stored product: its `_id` and its document. */
  datatype Product = Product(id: string, doc: Doc)

  /** The collection, oldest first. */
  type Catalog = seq<Product>

  /** The product schema as declared, with name, images, price, category and
      `isFeatured`; and the schema the create handler evidently expects, which
      also has the description, minimum order and stock status it fills in. */
  datatype Schema = Declared | Intended

  predicate InSchema(schema: Schema, p: Path)
  {
    match p
    case DescriptionPath | MinOrderPath | StatusPath => schema.Intended?
    case _ => true
  }

  /** What a strict schema keeps of a document: the paths it declares. */
  function Keep(d: Doc, schema: Schema): (r: Doc)
    ensures forall p :: At(r, p) == if InSchema(schema, p) then At(d, p) else Undefined
  {
    if schema.Intended? then d else d.(description := Undefined, minOrder := Undefined, status := Undefined)
  }

  /** `findById`: the product with that id, if any. */
  function FindById(catalog: Catalog, id: string): (r: Option<Product>)
    ensures r.None? <==> forall i :: 0 <= i < |catalog| ==> catalog[i].id != id
    ensures r.Some? ==> r.value.id == id && r.value in catalog
  {
    if catalog == [] then None
    else if catalog[0].id == id then Some(catalog[0])
    else FindById(catalog[1..], id)
  }

  /** A GET reply: the whole list, or one product. */
  datatype Listing = Many(products: seq<Product>) | Single(product: Product)

  const NotFound := "Product not found"
  const FetchFailed := "Failed to fetch products"

  /** GET /api/products[?id=…]. `id` is the query parameter (`None` when
      absent); `validId` says whether Mongoose can cast it to an ObjectId. */
  function Get(catalog: Catalog, id: Option<string>, validId: string -> bool): (r: Reply<Listing>)
    ensures (id == None || id == Some("")) ==>
      r.Ok? && r.code == 200 && r.value.Many? && |r.value.products| == |catalog|
      && forall i :: 0 <= i < |catalog| ==> r.value.products[i] == catalog[i]
    ensures id.Some? && id.value != "" && !validId(id.value) ==> r == Error(500, FetchFailed)
    ensures id.Some? && id.value != "" && validId(id.value) ==>
      (r == Error(404, NotFound) <==> forall i :: 0 <= i < |catalog| ==> catalog[i].id != id.value)
    ensures id.Some? && id.value != "" && validId(id.value) ==>
      r == Error(404, NotFound) || (r.Ok? && r.code == 200 && r.value.Single?)
    ensures r.Ok? && r.value.Single? ==>
      id.Some? && r.value.product.id == id.value
      && exists i :: 0 <= i < |catalog| && catalog[i].id == id.value && r.value.product == catalog[i]
  {
    if id == None || id == Some("") then
      Ok(200, Many(catalog))
    else if !validId(id.value) then Error(500, FetchFailed)
    else
      match FindById(catalog, id.value)
      case None => Error(404, NotFound)
      case Some(p) => Ok(200, Single(p))
  }

  const DescriptionRequired := "Description is required and cannot be empty"
  const CreateFailed := "Failed to create product"

  /** The body fields the create handler reads. */
  datatype Fields = Fields(
    name: JsValue,
    category: JsValue,
    price: JsValue,
    description: JsValue,
    minOrder: JsValue,
    images: JsValue,
    status: JsValue)

  function Read(body: Body): (f: Fields)
    ensures f.name == Field(body, "name") && f.category == Field(body, "category")
    ensures f.price == Field(body, "price") && f.description == Field(body, "description")
    ensures f.minOrder == Field(body, "minOrder") && f.images == Field(body, "images")
    ensures f.status == Field(body, "status")
  {
    Fields(Field(body, "name"), Field(body, "category"), Field(body, "price"), Field(body, "description"),
           Field(body, "minOrder"), Field(body, "images"), Field(body, "status"))
  }

  /** Body keys other than the seven the handler reads (such as the form's
      `stock`) change nothing. */
  lemma UnreadFieldsIgnored(body: Body, key: string, v: JsValue)
    requires key !in {"name", "category", "price", "description", "minOrder", "images", "status"}
    ensures Read(body[key := v]) == Read(body)
  {
  }

  /** The object the POST handler builds. `price` is `Number(body.price)`. */
  function ProductData(name: string, description: string, price: int, f: Fields): Doc
  {
    Doc(
      name := Str(Trim(name)),
      category := f.category,
      price := Num(price),
      description := Str(Trim(description)),
      minOrder := f.minOrder,
      images := f.images,
      status := if Truthy(f.status) then f.status else Str("In Stock"),
      isFeatured := Bool(false))
  }

  /** The schema's `required` checks: a non-empty name and a category that
      casts to non-empty text. */
  predicate Accepts(data: Doc)
  {
    RequiredStringPresent(data.name) && RequiredStringPresent(data.category)
  }

  /** What `Product.create(data)` stores under a strict schema, when it
      accepts the document: the declared paths, the category cast to text. */
  function Persist(data: Doc, schema: Schema): (r: Doc)
    requires Accepts(data)
    ensures forall p :: p != CategoryPath ==> At(r, p) == if InSchema(schema, p) then At(data, p) else Undefined
    ensures r.category == Str(CastToString(data.category).value)
  {
    Keep(data, schema).(category := Str(CastToString(data.category).value))
  }

  /** The catalog after a create request, and the reply. */
  datatype Outcome = Outcome(catalog: Catalog, reply: Reply<Product>)

  const CreateFailedOutcome := Error(500, CreateFailed)

  /** `Product.create` followed by the 201 reply, or the handler's 500 when
      validation fails; whether the save succeeds does not depend on the schema. */
  function Save(catalog: Catalog, data: Doc, newId: string, schema: Schema): (o: Outcome)
    ensures o.reply.Ok? <==> Accepts(data)
    ensures Accepts(data) ==> o == Outcome(catalog + [Product(newId, Persist(data, schema))], Ok(201, Product(newId, Persist(data, schema))))
    ensures !Accepts(data) ==> o == Outcome(catalog, CreateFailedOutcome)
  {
    if Accepts(data) then
      var product := Product(newId, Persist(data, schema));
      Outcome(catalog + [product], Ok(201, product))
    else Outcome(catalog, CreateFailedOutcome)
  }

  /** `!body.description?.trim()`: an absent, null or blank description. */
  predicate DescriptionMissing(d: JsValue)
  {
    d.Undefined? || d.Null? || (d.Str? && Trim(d.s) == [])
  }

  /** When a create request gets past every check: a description that is a
      non-blank string, a string name that is not blank once trimmed, a price
      `Number` can read, and a category that casts to non-empty text. */
  predicate Creatable(f: Fields, toNumber: JsValue -> Option<int>)
  {
    && f.description.Str? && Trim(f.description.s) != []
    && f.name.Str? && Trim(f.name.s) != []
    && toNumber(f.price).Some?
    && RequiredStringPresent(f.category)
  }

  /** The paths both schemas declare hold what the request gave: the trimmed
      name, the category as text, the price as a number, the images, and
      `isFeatured` false. */
  predicate StoredFrom(doc: Doc, f: Fields, toNumber: JsValue -> Option<int>)
    requires Creatable(f, toNumber)
  {
    && doc.name == Str(Trim(f.name.s))
    && doc.category == Str(CastToString(f.category).value)
    && doc.price == Num(toNumber(f.price).value)
    && doc.images == f.images
    && doc.isFeatured == Bool(false)
  }

  /** POST /api/products with a save under `schema`. `newId` is the id the
      database assigns; `toNumber` is JavaScript's `Number`, `None` standing
      for NaN, which the price cast rejects. Calling `trim` on a value that
      is not a string throws, which the handler answers with 500. */
  function PostWith(catalog: Catalog, f: Fields, newId: string, toNumber: JsValue -> Option<int>, schema: Schema): (o: Outcome)
    ensures DescriptionMissing(f.description) <==> o == Outcome(catalog, Error(400, DescriptionRequired))
    ensures o.reply.Ok? ==> o.catalog == catalog + [o.reply.value]
    ensures o.reply.Error? ==> o.catalog == catalog && o.reply.code in {400, 500}
    ensures o.reply.Ok? ==> o.reply.code == 201 && o.reply.value.id == newId
    ensures o.reply.Ok? <==> Creatable(f, toNumber)
    ensures o.reply.Ok? ==> StoredFrom(o.reply.value.doc, f, toNumber)
    ensures o.reply.Ok? ==> forall p :: p != CategoryPath && !InSchema(schema, p) ==> !Has(o.reply.value.doc, p)
    ensures o.reply.Ok? && schema == Intended ==>
      && o.reply.value.doc.description == Str(Trim(f.description.s))
      && o.reply.value.doc.status == (if Truthy(f.status) then f.status else Str("In Stock"))
  {
    if DescriptionMissing(f.description) then Outcome(catalog, Error(400, DescriptionRequired))
    else if !f.description.Str? || !f.name.Str? || toNumber(f.price).None? then Outcome(catalog, CreateFailedOutcome)
    else
      var data := ProductData(f.name.s, f.description.s, toNumber(f.price).value, f);
      PersistStoresRequest(f, toNumber, schema);
      Save(catalog, data, newId, schema)
  }

  /** Past the description, name and price checks, the built document passes
      the schema's checks exactly when the request is creatable, and what is
      stored then holds what the request gave. */
  lemma PersistStoresRequest(f: Fields, toNumber: JsValue -> Option<int>, schema: Schema)
    requires f.description.Str? && !DescriptionMissing(f.description) && f.name.Str? && toNumber(f.price).Some?
    ensures var data := ProductData(f.name.s, f.description.s, toNumber(f.price).value, f);
      && (Accepts(data) <==> Creatable(f, toNumber))
      && (Accepts(data) ==> StoredFrom(Persist(data, schema), f, toNumber))
  {
    var data := ProductData(f.name.s, f.description.s, toNumber(f.price).value, f);
    assert data.name == Str(Trim(f.name.s)) && data.category == f.category;
    if Accepts(data) {
      KeptByBothSchemas(data, schema);
    }
  }

  /** The paths both schemas declare survive the save unchanged. */
  lemma KeptByBothSchemas(data: Doc, schema: Schema)
    requires Accepts(data)
    ensures var stored := Persist(data, schema);
      && stored.name == data.name && stored.price == data.price
      && stored.images == data.images && stored.isFeatured == data.isFeatured
      && stored.category == Str(CastToString(data.category).value)
  {
  }

  /** POST /api/products as written, saved under the declared schema: the
      stored product never has a description, minimum order or status. */
  function Post(catalog: Catalog, body: Body, newId: string, toNumber: JsValue -> Option<int>): (o: Outcome)
    ensures DescriptionMissing(Field(body, "description")) <==> o == Outcome(catalog, Error(400, DescriptionRequired))
    ensures o.reply.Ok? <==> Creatable(Read(body), toNumber)
    ensures o.reply.Ok? ==> o.catalog == catalog + [o.reply.value] && o.reply.code == 201 && o.reply.value.id == newId
    ensures o.reply.Error? ==> o.catalog == catalog
    ensures o.reply.Ok? ==> StoredFrom(o.reply.value.doc, Read(body), toNumber)
    ensures o.reply.Ok? ==> !Has(o.reply.value.doc, DescriptionPath) && !Has(o.reply.value.doc, StatusPath)
                            && !Has(o.reply.value.doc, MinOrderPath)
  {
    var f := Read(body);
    assert !InSchema(Declared, DescriptionPath) && !InSchema(Declared, StatusPath) && !InSchema(Declared, MinOrderPath);
    PostWith(catalog, f, newId, toNumber, Declared)
  }

  /** POST /api/products under the schema the handler expects: a created
      product holds the trimmed name and description, the given status or
      'In Stock', and `isFeatured` false. */
  function PostCorrected(catalog: Catalog, body: Body, newId: string, toNumber: JsValue -> Option<int>): (o: Outcome)
    ensures DescriptionMissing(Field(body, "description")) <==> o == Outcome(catalog, Error(400, DescriptionRequired))
    ensures o.reply.Ok? <==> Creatable(Read(body), toNumber)
    ensures o.reply.Ok? ==> o.catalog == catalog + [o.reply.value] && o.reply.code == 201 && o.reply.value.id == newId
    ensures o.reply.Error? ==> o.catalog == catalog
    ensures o.reply.Ok? ==> StoredFrom(o.reply.value.doc, Read(body), toNumber)
    ensures o.reply.Ok? ==>
      && Field(body, "name").Str? && Field(body, "description").Str?
      && o.reply.value.doc.name == Str(Trim(Field(body, "name").s))
      && o.reply.value.doc.description == Str(Trim(Field(body, "description").s))
      && Trim(Field(body, "description").s) != []
      && o.reply.value.doc.status == (if Truthy(Field(body, "status")) then Field(body, "status") else Str("In Stock"))
      && o.reply.value.doc.isFeatured == Bool(false)
      && o.reply.value.doc.images == Field(body, "images")
  {
    PostWith(catalog, Read(body), newId, toNumber, Intended)
  }

  /** Every product the handler builds has a description and a status (the
      given one or 'In Stock'); a document the required checks accept is saved
      under either schema, but only the intended one keeps those two fields. */
  lemma DeclaredSchemaDropsDescriptionAndStatus(catalog: Catalog, data: Doc, newId: string)
    requires Accepts(data) && data.description != Undefined && data.status != Undefined
    ensures var asWritten := Save(catalog, data, newId, Declared);
      var intended := Save(catalog, data, newId, Intended);
      && asWritten.reply.Ok? && intended.reply.Ok?
      && !Has(asWritten.reply.value.doc, DescriptionPath) && !Has(asWritten.reply.value.doc, StatusPath)
      && Has(intended.reply.value.doc, DescriptionPath) && Has(intended.reply.value.doc, StatusPath)
  {
    assert At(Persist(data, Declared), DescriptionPath) == Undefined;
    assert At(Persist(data, Intended), DescriptionPath) == data.description;
    assert At(Persist(data, Declared), StatusPath) == Undefined;
    assert At(Persist(data, Intended), StatusPath) == data.status;
  }

  /** A request past the description, name and price checks goes to the save. */
  lemma PostWithSaves(catalog: Catalog, f: Fields, newId: string, toNumber: JsValue -> Option<int>, schema: Schema)
    requires f.description.Str? && !DescriptionMissing(f.description) && f.name.Str? && toNumber(f.price).Some?
    ensures PostWith(catalog, f, newId, toNumber, schema)
            == Save(catalog, ProductData(f.name.s, f.description.s, toNumber(f.price).value, f), newId, schema)
  {
  }
}

=== FILE: promotions.dfy ===
/** Which promotions are live: the storefront's hot-deal list, the news-banner
    strip, and the active counts on the admin dashboard. A promotion is live
    when the current time lies in its closed window and its status is Active. */
module Promotions {
  import opened Wrappers
  import opened Seqs
  import opened Text
  import opened HotDealModel

  /** A stored news banner; banners share the hot deals' status enumeration. */
  datatype NewsBanner = NewsBanner(
    id: string,
    title: string,
    content: string,
    imageUrl: string,
    startDate: int,
    endDate: int,
    status: DealStatus)

  /** `now >= startDate && now <= endDate && status === 'Active'`. */
  predicate LiveAt(startDate: int, endDate: int, status: DealStatus, now: int)
  {
    startDate <= now <= endDate && status == Active
  }

  predicate DealIsLive(deal: HotDeal, now: int)
  {
    LiveAt(deal.startDate, deal.endDate, deal.status, now)
  }

  /** The deals the storefront's hot-deals page shows, in the fetched order. */
  function LiveDeals(deals: seq<HotDeal>, now: int): (shown: seq<HotDeal>)
    ensures IsSubsequence(shown, deals)
    ensures |shown| == Count(deals, d => DealIsLive(d, now))
    ensures forall i :: 0 <= i < |shown| ==>
      shown[i].startDate <= now <= shown[i].endDate && shown[i].status == Active
    ensures forall i :: 0 <= i < |deals| ==>
      (deals[i].startDate <= now <= deals[i].endDate && deals[i].status == Active ==> deals[i] in shown)
  {
    Filter(deals, d => DealIsLive(d, now))
  }

  /** A Scheduled or Expired deal is never shown, whatever its dates. */
  lemma InactiveDealHidden(deals: seq<HotDeal>, now: int, i: int)
    requires 0 <= i < |deals| && deals[i].status != Active
    ensures deals[i] !in LiveDeals(deals, now)
  {
  }

  /** The dashboard's test for a banner: the plain window test. */
  predicate BannerIsLive(banner: NewsBanner, now: int)
  {
    LiveAt(banner.startDate, banner.endDate, banner.status, now)
  }

  /** The banner strip's test: a banner whose end precedes its start is
      rejected outright, every other one must be live. */
  predicate KeepBanner(banner: NewsBanner, now: int)
  {
    if banner.endDate < banner.startDate then false
    else LiveAt(banner.startDate, banner.endDate, banner.status, now)
  }

  /** The explicit rejection of inverted windows never changes the verdict:
      no time lies in an inverted window. */
  lemma InvertedWindowRedundant(banner: NewsBanner, now: int)
    ensures KeepBanner(banner, now) == LiveAt(banner.startDate, banner.endDate, banner.status, now)
  {
  }

  /** The banners the strip keeps, in the fetched order. */
  function LiveBanners(banners: seq<NewsBanner>, now: int): (kept: seq<NewsBanner>)
    ensures IsSubsequence(kept, banners)
    ensures |kept| == Count(banners, b => KeepBanner(b, now))
    ensures forall i :: 0 <= i < |kept| ==>
      kept[i].startDate <= kept[i].endDate && kept[i].startDate <= now <= kept[i].endDate
      && kept[i].status == Active
    ensures forall i :: 0 <= i < |banners| ==>
      (banners[i].startDate <= now <= banners[i].endDate && banners[i].status == Active ==> banners[i] in kept)
  {
    Filter(banners, b => KeepBanner(b, now))
  }

  /** What the banner strip renders. */
  datatype BannerView = Skeleton | DebugNotice | Hidden | Strip(banners: seq<NewsBanner>)

  /** The strip: a skeleton while loading; with nothing kept, a notice in
      development mode and nothing otherwise; else the kept banners. */
  function BannerStripView(loading: bool, kept: seq<NewsBanner>, development: bool): (v: BannerView)
    ensures v == Skeleton <==> loading
    ensures v == Hidden <==> !loading && kept == [] && !development
    ensures v == DebugNotice <==> !loading && kept == [] && development
    ensures v.Strip? ==> v.banners == kept && kept != []
  {
    if loading then Skeleton
    else if kept == [] then (if development then DebugNotice else Hidden)
    else Strip(kept)
  }

  /** The dashboard's "Active Hot Deals" number. */
  function ActiveDealCount(deals: seq<HotDeal>, now: int): (n: nat)
    ensures n <= |deals|
    ensures n == Count(deals, d => DealIsLive(d, now))
  {
    |LiveDeals(deals, now)|
  }

  /** The dashboard's "Active News Banners" number; the dashboard applies the
      plain window test, without the strip's inverted-window rejection. */
  function ActiveBannerCount(banners: seq<NewsBanner>, now: int): (n: nat)
    ensures n <= |banners|
    ensures n == Count(banners, b => BannerIsLive(b, now))
  {
    |Filter(banners, b => BannerIsLive(b, now))|
  }

  /** The dashboard counts exactly the banners the storefront strip shows. */
  lemma DashboardCountsStripBanners(banners: seq<NewsBanner>, now: int)
    ensures ActiveBannerCount(banners, now) == |LiveBanners(banners, now)|
  {
    CountAgrees(banners, b => BannerIsLive(b, now), b => KeepBanner(b, now));
  }

  /** The dashboard's three stats. */
  datatype Stats = Stats(totalProducts: nat, activeHotDeals: nat, activeNewsBanners: nat)

  /** `fetchStats`: the three fetches run in order and the first failure
      (`None`) abandons the rest, leaving those stats at their initial 0. */
  function FetchStats(
    productCount: Option<nat>,
    deals: Option<seq<HotDeal>>,
    banners: Option<seq<NewsBanner>>,
    now: int): (s: Stats)
    ensures productCount.None? ==> s == Stats(0, 0, 0)
    ensures productCount.Some? ==> s.totalProducts == productCount.value
    ensures deals.Some? && productCount.Some? ==>
      s.activeHotDeals == Count(deals.value, d => DealIsLive(d, now)) && s.activeHotDeals <= |deals.value|
    ensures deals.None? ==> s.activeHotDeals == 0 && s.activeNewsBanners == 0
    ensures banners.Some? && deals.Some? && productCount.Some? ==>
      s.activeNewsBanners == Count(banners.value, b => BannerIsLive(b, now))
    ensures banners.None? ==> s.activeNewsBanners == 0
  {
    match productCount
    case None => Stats(0, 0, 0)
    case Some(total) =>
      match deals
      case None => Stats(total, 0, 0)
      case Some(ds) =>
        match banners
        case None => Stats(total, ActiveDealCount(ds, now), 0)
        case Some(bs) => Stats(total, ActiveDealCount(ds, now), ActiveBannerCount(bs, now))
  }

  /** A stat card's value: "..." while loading, else the count in decimal. */
  function StatValue(loading: bool, count: nat): (v: string)
    ensures loading ==> v == "..."
    ensures !loading ==> ParseNat(v) == Some(count)
  {
    if loading then "..." else (ParseNatToString(count); NatToString(count))
  }
}

=== FILE: route_guard.dfy ===
/** The two admin route guards: the server middleware's prefix-based
    allow/redirect decision on the `token` cookie, and the admin layout's
    client-side decision on the stored token, which recognises auth pages by
    substring instead. */
module RouteGuard {
  import opened Wrappers
  import opened Seqs
  import opened Text

  const LoginPath: string := "/admin/auth/login"

  /** The pages reachable without a session. */
  const PublicAuthRoutes: seq<string> :=
    ["/admin/auth/login", "/admin/auth/register", "/admin/auth/forgot-password", "/admin/auth/reset-password"]

  /** A token counts only when present and non-empty (JavaScript truthiness). */
  predicate HasToken(token: Option<string>)
  {
    token.Some? && token.value != ""
  }

  predicate IsAdminPath(path: string)
  {
    StartsWith(path, "/admin")
  }

  /** `publicAuthRoutes.some(route => path.startsWith(route))`. */
  predicate IsPublicAuthRoute(path: string)
  {
    exists i :: 0 <= i < |PublicAuthRoutes| && StartsWith(path, PublicAuthRoutes[i])
  }

  datatype Decision = Next | Redirect(target: string)

  /** The middleware: non-admin paths and the public auth pages pass; any
      other admin path passes with a token (not inspected here) and is sent to
      the login page without one. */
  function Middleware(path: string, token: Option<string>): (d: Decision)
    ensures !IsAdminPath(path) ==> d == Next
    ensures IsPublicAuthRoute(path) ==> d == Next
    ensures d.Redirect? <==> IsAdminPath(path) && !IsPublicAuthRoute(path) && !HasToken(token)
    ensures d.Redirect? ==> d.target == LoginPath
  {
    if !IsAdminPath(path) then Next
    else if IsPublicAuthRoute(path) then Next
    else if !HasToken(token) && IsAdminPath(path) then Redirect(LoginPath)
    else Next
  }

  /** The login page is public, so a redirect is never followed by another. */
  lemma RedirectTargetIsPublic(path: string, token: Option<string>, nextToken: Option<string>)
    requires Middleware(path, token).Redirect?
    ensures Middleware(Middleware(path, token).target, nextToken) == Next
  {
    assert StartsWith(LoginPath, PublicAuthRoutes[0]);
  }

  /** The token's value is never inspected: any two present tokens are
      treated alike. */
  lemma TokenNotInspected(path: string, t1: string, t2: string)
    requires t1 != "" && t2 != ""
    ensures Middleware(path, Some(t1)) == Middleware(path, Some(t2)) == Next
  {
  }

  /** The admin layout's test for an auth page: a substring match. */
  predicate IsAuthRoute(pathname: string)
  {
    Contains(pathname, "/admin/auth/")
  }

  /** Every page the middleware treats as public, the layout treats as an
      auth page. */
  lemma PublicRoutesAreAuthRoutes(path: string)
    requires IsPublicAuthRoute(path)
    ensures IsAuthRoute(path)
  {
    var i :| 0 <= i < |PublicAuthRoutes| && StartsWith(path, PublicAuthRoutes[i]);
    var route := PublicAuthRoutes[i];
    assert route[..12] == "/admin/auth/";
    assert path[..12] == route[..12];
    assert OccursAt(path, "/admin/auth/", 0);
  }

  /** The converse fails: an unlisted page under /admin/auth/ is an auth page
      to the layout yet the middleware still sends a visitor without a token
      to the login page. */
  lemma GuardsDisagreeOnUnlistedAuthPage()
    ensures IsAuthRoute("/admin/auth/verify")
    ensures Middleware("/admin/auth/verify", None) == Redirect(LoginPath)
  {
    var path := "/admin/auth/verify";
    assert OccursAt(path, "/admin/auth/", 0);
    assert StartsWith(path, "/admin");
    forall i | 0 <= i < |PublicAuthRoutes|
      ensures !StartsWith(path, PublicAuthRoutes[i])
    {
      var route := PublicAuthRoutes[i];
      if |route| <= |path| {
        assert path[12] != route[12];
      }
    }
  }

  /** The side effect the layout's effect runs. */
  datatype LayoutEffect = PushLogin | ValidateToken | NoEffect

  /** Without a stored token off an auth page, go to the login page and skip
      validation; with one, validate it against the backend. */
  function LayoutEffectOf(pathname: string, storedToken: Option<string>): (e: LayoutEffect)
    ensures e == PushLogin <==> !HasToken(storedToken) && !IsAuthRoute(pathname)
    ensures e == ValidateToken <==> HasToken(storedToken) && !IsAuthRoute(pathname)
    ensures e == NoEffect <==> IsAuthRoute(pathname)
  {
    if !HasToken(storedToken) && !IsAuthRoute(pathname) then PushLogin
    else if HasToken(storedToken) && !IsAuthRoute(pathname) then ValidateToken
    else NoEffect
  }

  /** The sidebar links of the admin shell. */
  const NavHrefs: seq<string> :=
    ["/admin", "/admin/products", "/admin/hot-deals", "/admin/news-banners", "/admin/price-list"]

  /** A nav item is highlighted only on its exact page. */
  predicate IsActive(pathname: string, href: string)
  {
    pathname == href
  }

  /** What the layout renders. */
  datatype LayoutView = Bare | Blank | Shell(highlighted: seq<string>)

  /** Auth pages render bare; other pages render nothing until authenticated,
      then the shell with the nav items matching the path highlighted. */
  function LayoutViewOf(pathname: string, isAuthenticated: bool): (v: LayoutView)
    ensures v == Bare <==> IsAuthRoute(pathname)
    ensures v == Blank <==> !IsAuthRoute(pathname) && !isAuthenticated
    ensures v.Shell? ==> |v.highlighted| <= 1
    ensures v.Shell? ==> (v.highlighted == [pathname] <==> pathname in NavHrefs)
    ensures v.Shell? && pathname !in NavHrefs ==> v.highlighted == []
  {
    if IsAuthRoute(pathname) then Bare
    else if !isAuthenticated then Blank
    else Shell(Highlighted(pathname))
  }

  function Highlighted(pathname: string): (hs: seq<string>)
    ensures |hs| <= 1
    ensures hs == [pathname] <==> pathname in NavHrefs
    ensures pathname !in NavHrefs ==> hs == []
  {
    var hs := Filter(NavHrefs, h => IsActive(pathname, h));
    assert forall i :: 0 <= i < |hs| ==> hs[i] == pathname;
    if pathname in NavHrefs then
      assert hs == [pathname];
      hs
    else
      hs
  }
}

=== FILE: seqs.dfy ===
/** Order-preserving filtering and counting over sequences, used for every
    list the storefront and the admin panel narrow down with `Array.filter`. */
module Seqs {

  /** `a` is an order-preserving subsequence of `b` (greedy matching). */
  predicate IsSubsequence<T(==)>(a: seq<T>, b: seq<T>)
    decreases |b|
  {
    if a == [] then true
    else if b == [] then false
    else if a[0] == b[0] then IsSubsequence(a[1..], b[1..])
    else IsSubsequence(a, b[1..])
  }

  /** The number of elements of `s` that satisfy `p`, counted position by position. */
  function Count<T>(s: seq<T>, p: T -> bool): nat
  {
    if s == [] then 0 else (if p(s[0]) then 1 else 0) + Count(s[1..], p)
  }

  /** `Array.prototype.filter`: keeps, in order, exactly the elements satisfying `p`. */
  function Filter<T(==)>(s: seq<T>, p: T -> bool): (r: seq<T>)
    ensures |r| <= |s|
    ensures |r| == Count(s, p)
    ensures forall i :: 0 <= i < |r| ==> r[i] in s && p(r[i])
    ensures forall i :: 0 <= i < |s| && p(s[i]) ==> s[i] in r
    ensures IsSubsequence(r, s)
  {
    if s == [] then []
    else if p(s[0]) then [s[0]] + Filter(s[1..], p)
    else Filter(s[1..], p)
  }

  /** Filtering with a predicate every element satisfies returns the input unchanged. */
  lemma {:induction false} FilterKeepsAll<T>(s: seq<T>, p: T -> bool)
    requires forall i :: 0 <= i < |s| ==> p(s[i])
    ensures Filter(s, p) == s
  {
    if s != [] {
      assert p(s[0]);
      FilterKeepsAll(s[1..], p);
      assert s == [s[0]] + s[1..];
    }
  }

  /** A subsequence is never longer than the sequence it is drawn from. */
  lemma {:induction false} SubsequenceLength<T>(a: seq<T>, b: seq<T>)
    requires IsSubsequence(a, b)
    ensures |a| <= |b|
    decreases |b|
  {
    if a != [] && b != [] {
      if a[0] == b[0] {
        SubsequenceLength(a[1..], b[1..]);
      } else {
        SubsequenceLength(a, b[1..]);
      }
    }
  }

  /** Two predicates that agree on every element count the same elements. */
  lemma {:induction false} CountAgrees<T>(s: seq<T>, p: T -> bool, q: T -> bool)
    requires forall i :: 0 <= i < |s| ==> p(s[i]) == q(s[i])
    ensures Count(s, p) == Count(s, q)
  {
    if s != [] {
      CountAgrees(s[1..], p, q);
    }
  }

  /** Two predicates that agree on every element filter out the same elements. */
  lemma {:induction false} FilterAgrees<T>(s: seq<T>, p: T -> bool, q: T -> bool)
    requires forall i :: 0 <= i < |s| ==> p(s[i]) == q(s[i])
    ensures Filter(s, p) == Filter(s, q)
  {
    if s != [] {
      FilterAgrees(s[1..], p, q);
    }
  }
}

=== FILE: slug.dfy ===
/** The category slug: the name lowercased, then every maximal run of
    characters outside `[a-z0-9]` replaced by a single `-` (the global regular
    expression `/[^a-z0-9]+/g`). Leading and trailing runs are kept. */
module Slug {
  import opened Wrappers
  import opened Text
  import opened Http

  predicate IsSlugChar(c: char)
  {
    'a' <= c <= 'z' || '0' <= c <= '9'
  }

  /** Only `a-z`, `0-9` and `-`. */
  predicate SlugAlphabet(s: string)
  {
    forall i :: 0 <= i < |s| ==> IsSlugChar(s[i]) || s[i] == '-'
  }

  predicate NoDoubleDash(s: string)
  {
    forall i :: 0 <= i < |s| - 1 ==> !(s[i] == '-' && s[i + 1] == '-')
  }

  /** Left-to-right rewrite; `inRun` says the previous character already
      opened a run that has been replaced. */
  function Collapse(s: string, inRun: bool): (r: string)
    ensures |r| <= |s|
    ensures SlugAlphabet(r)
    ensures NoDoubleDash(r)
    ensures inRun ==> r == [] || r[0] != '-'
  {
    if s == [] then []
    else if IsSlugChar(s[0]) then [s[0]] + Collapse(s[1..], false)
    else if inRun then Collapse(s[1..], true)
    else ['-'] + Collapse(s[1..], true)
  }

  /** The slug of a category name. */
  function Slugify(name: string): (slug: string)
    ensures SlugAlphabet(slug)
    ensures NoDoubleDash(slug)
    ensures |slug| <= |name|
    ensures name != [] && !IsSlugChar(LowerChar(name[0])) ==> slug != [] && slug[0] == '-'
  {
    Collapse(Lower(name), false)
  }

  // The same rewrite stated position by position, the way the regular
  // expression reads: a slug character is kept, the first character of a run
  // becomes `-`, and the rest of the run disappears.

  /** What position `i` of `t` contributes to the slug. */
  function Piece(t: string, i: int): string
    requires 0 <= i < |t|
  {
    if IsSlugChar(t[i]) then [t[i]]
    else if i > 0 && !IsSlugChar(t[i - 1]) then []
    else ['-']
  }

  /** The pieces of the first `n` positions of `t`, in order. */
  function Pieces(t: string, n: nat): string
    requires n <= |t|
  {
    if n == 0 then [] else Pieces(t, n - 1) + Piece(t, n - 1)
  }

  /** The run rewrite as a whole. */
  function RunRewrite(t: string): string
  {
    Pieces(t, |t|)
  }

  /** The left-to-right rewrite and the position-by-position rewrite agree. */
  lemma SlugMatchesRunRewrite(name: string)
    ensures Slugify(name) == RunRewrite(Lower(name))
  {
    var t := Lower(name);
    CollapseSuffix(t, 0);
    assert t[0..] == t;
  }

  lemma {:induction false} CollapseSuffix(t: string, k: nat)
    requires k <= |t|
    ensures Pieces(t, |t|) == Pieces(t, k) + Collapse(t[k..], k > 0 && !IsSlugChar(t[k - 1]))
    decreases |t| - k
  {
    if k == |t| {
      assert t[k..] == [];
    } else {
      CollapseSuffix(t, k + 1);
      CollapseStep(t, k);
      var rest := Collapse(t[k + 1..], !IsSlugChar(t[k]));
      Associative(Pieces(t, k), Piece(t, k), rest);
    }
  }

  lemma Associative(a: string, b: string, c: string)
    ensures (a + b) + c == a + (b + c)
  {
  }

  /** One step of the left-to-right rewrite contributes one piece. */
  lemma CollapseStep(t: string, k: nat)
    requires k < |t|
    ensures Collapse(t[k..], k > 0 && !IsSlugChar(t[k - 1]))
      == Piece(t, k) + Collapse(t[k + 1..], !IsSlugChar(t[k]))
  {
    var u := t[k..];
    assert u[0] == t[k];
    assert u[1..] == t[k + 1..];
  }

  /** A trailing run of separators is kept as a single `-`, not trimmed. */
  lemma TrailingRunKept(name: string)
    requires name != [] && !IsSlugChar(LowerChar(name[|name| - 1]))
    ensures Slugify(name) != [] && Slugify(name)[|Slugify(name)| - 1] == '-'
  {
    var t := Lower(name);
    SlugMatchesRunRewrite(name);
    PiecesEndWithDash(t, |t|);
  }

  lemma {:induction false} PiecesEndWithDash(t: string, n: nat)
    requires 0 < n <= |t| && !IsSlugChar(t[n - 1])
    ensures Pieces(t, n) != [] && Pieces(t, n)[|Pieces(t, n)| - 1] == '-'
  {
    if Piece(t, n - 1) == [] {
      PiecesEndWithDash(t, n - 1);
      assert Pieces(t, n) == Pieces(t, n - 1);
    }
  }

  /** A string already in slug form is its own slug. */
  lemma {:induction false} CollapseFixed(s: string, inRun: bool)
    requires SlugAlphabet(s) && NoDoubleDash(s)
    requires inRun ==> s == [] || s[0] != '-'
    ensures Collapse(s, inRun) == s
  {
    if s != [] {
      assert SlugAlphabet(s[1..]) && NoDoubleDash(s[1..]);
      if IsSlugChar(s[0]) {
        CollapseFixed(s[1..], false);
      } else {
        assert |s| > 1 ==> s[1] != '-';
        CollapseFixed(s[1..], true);
      }
      assert s == [s[0]] + s[1..];
    }
  }

  /** Slugging a slug changes nothing. */
  lemma SlugifyIdempotent(name: string)
    ensures Slugify(Slugify(name)) == Slugify(name)
  {
    var slug := Slugify(name);
    assert Lower(slug) == slug;
    CollapseFixed(slug, false);
  }

  /** `{ ...body, slug }`: every key of the body, with `slug` set from the name. */
  function CategoryInput(body: Body, name: string): (doc: Body)
    ensures doc.Keys == body.Keys + {"slug"}
    ensures forall k :: k in body && k != "slug" ==> doc[k] == body[k]
    ensures doc["slug"] == Str(Slugify(name))
    ensures SlugAlphabet(doc["slug"].s) && NoDoubleDash(doc["slug"].s)
  {
    body["slug" := Str(Slugify(name))]
  }

  /** POST of the categories route. A name that is not a string makes
      `toLowerCase` throw; otherwise the body with its slug goes to
      `Category.create`, whose schema is not part of this model: `create`
      gives the stored document, or nothing when the save fails (a failed
      validation or a duplicate key). Both failures are answered with 500. */
  function CreateCategory(body: Body, create: Body -> Option<Body>): (r: Reply<Body>)
    ensures r.Ok? <==> Field(body, "name").Str? && create(CategoryInput(body, Field(body, "name").s)).Some?
    ensures r.Error? ==> r == Error(500, "Failed to create category")
    ensures r.Ok? ==> r.code == 201 && r.value == create(CategoryInput(body, Field(body, "name").s)).value
  {
    match Field(body, "name")
    case Str(name) =>
      (match create(CategoryInput(body, name))
       case Some(stored) => Ok(201, stored)
       case None => Error(500, "Failed to create category"))
    case _ => Error(500, "Failed to create category")
  }
}

=== FILE: text.dfy ===
/** The string primitives the TypeScript code relies on: ASCII `toLowerCase`,
    `startsWith`, `includes`, `trim` and the decimal rendering of integers
    (`Number.prototype.toString` / template-literal interpolation). */
module Text {
  import opened Wrappers

  predicate IsUpperAscii(c: char) { 'A' <= c <= 'Z' }

  predicate IsLowerAscii(c: char) { 'a' <= c <= 'z' }

  predicate IsDigit(c: char) { '0' <= c <= '9' }

  /** `toLowerCase` on one character, restricted to ASCII letters. */
  function LowerChar(c: char): (r: char)
    ensures !IsUpperAscii(r)
    ensures IsUpperAscii(c) ==> IsLowerAscii(r) && r as int - c as int == 32
    ensures !IsUpperAscii(c) ==> r == c
  {
    if IsUpperAscii(c) then (c as int + 32) as char else c
  }

  /** `String.prototype.toLowerCase`, restricted to ASCII letters. */
  function Lower(s: string): (r: string)
    ensures |r| == |s|
    ensures forall i :: 0 <= i < |s| ==> r[i] == LowerChar(s[i])
  {
    seq(|s|, i requires 0 <= i < |s| => LowerChar(s[i]))
  }

  /** Lowering twice is lowering once. */
  lemma LowerIdempotent(s: string)
    ensures Lower(Lower(s)) == Lower(s)
  {
  }

  /** `a.toLowerCase() === b.toLowerCase()`. */
  predicate EqualsIgnoreCase(a: string, b: string)
  {
    Lower(a) == Lower(b)
  }

  /** `s.startsWith(prefix)`. */
  predicate StartsWith(s: string, prefix: string)
  {
    |prefix| <= |s| && s[..|prefix|] == prefix
  }

  /** `sub` occurs in `s` starting at position `i`. */
  predicate OccursAt(s: string, sub: string, i: int)
  {
    0 <= i && i + |sub| <= |s| && s[i..i + |sub|] == sub
  }

  /** `s.includes(sub)`. */
  predicate Contains(s: string, sub: string)
  {
    exists i :: 0 <= i <= |s| - |sub| && OccursAt(s, sub, i)
  }

  /** A string that starts with `prefix` contains it. */
  lemma PrefixIsContained(s: string, prefix: string)
    requires StartsWith(s, prefix)
    ensures Contains(s, prefix)
  {
    assert OccursAt(s, prefix, 0);
  }

  /** The empty string is contained in every string. */
  lemma EmptyIsContained(s: string)
    ensures Contains(s, "")
  {
    assert OccursAt(s, "", 0);
  }

  /** The characters `String.prototype.trim` removes: ECMAScript WhiteSpace
      and LineTerminator code points. */
  predicate IsJsWhitespace(c: char)
  {
    || c == '\t' || c == '\n' || c == '\U{000B}' || c == '\U{000C}' || c == '\r'
    || c == ' ' || c == '\U{00A0}' || c == '\U{1680}'
    || ('\U{2000}' <= c <= '\U{200A}')
    || c == '\U{2028}' || c == '\U{2029}' || c == '\U{202F}' || c == '\U{205F}'
    || c == '\U{3000}' || c == '\U{FEFF}'
  }

  predicate AllWhitespace(s: string)
  {
    forall i :: 0 <= i < |s| ==> IsJsWhitespace(s[i])
  }

  /** Drops the leading whitespace. */
  function TrimStart(s: string): (r: string)
    ensures |r| <= |s| && r == s[|s| - |r|..]
    ensures r == [] || !IsJsWhitespace(r[0])
    ensures AllWhitespace(s[..|s| - |r|])
  {
    if s != [] && IsJsWhitespace(s[0]) then
      var r := TrimStart(s[1..]);
      assert s[..|s| - |r|] == [s[0]] + s[1..][..|s| - 1 - |r|];
      r
    else s
  }

  /** Drops the trailing whitespace. */
  function TrimEnd(s: string): (r: string)
    ensures |r| <= |s| && r == s[..|r|]
    ensures r == [] || !IsJsWhitespace(r[|r| - 1])
    ensures AllWhitespace(s[|r|..])
  {
    if s != [] && IsJsWhitespace(s[|s| - 1]) then
      var r := TrimEnd(s[..|s| - 1]);
      assert s[|r|..] == s[..|s| - 1][|r|..] + [s[|s| - 1]];
      WhitespaceConcat(s[..|s| - 1][|r|..], [s[|s| - 1]]);
      r
    else s
  }

  /** `r` sits in `s` at `i` with only whitespace before and after it. */
  predicate TrimmedAt(s: string, r: string, i: int)
  {
    0 <= i <= |s| - |r| && s[i..i + |r|] == r && AllWhitespace(s[..i]) && AllWhitespace(s[i + |r|..])
  }

  /** `String.prototype.trim`: the slice of `s` left once the leading and
      trailing whitespace are cut off; it neither starts nor ends with
      whitespace, and is empty exactly when `s` is all whitespace. */
  function Trim(s: string): (r: string)
    ensures r == [] <==> AllWhitespace(s)
    ensures r != [] ==> !IsJsWhitespace(r[0]) && !IsJsWhitespace(r[|r| - 1])
    ensures exists i :: TrimmedAt(s, r, i)
    ensures Contains(s, r)
  {
    var front := TrimStart(s);
    var r := TrimEnd(front);
    TrimSlice(s, front, r);
    r
  }

  lemma TrimSlice(s: string, front: string, r: string)
    requires |front| <= |s| && front == s[|s| - |front|..]
    requires front == [] || !IsJsWhitespace(front[0])
    requires AllWhitespace(s[..|s| - |front|])
    requires |r| <= |front| && r == front[..|r|]
    requires r == [] || !IsJsWhitespace(r[|r| - 1])
    requires AllWhitespace(front[|r|..])
    ensures r == [] <==> AllWhitespace(s)
    ensures r != [] ==> !IsJsWhitespace(r[0]) && !IsJsWhitespace(r[|r| - 1])
    ensures TrimmedAt(s, r, |s| - |front|)
    ensures exists i :: TrimmedAt(s, r, i)
    ensures OccursAt(s, r, |s| - |front|)
  {
    var k := |s| - |front|;
    assert s[k..k + |r|] == front[..|r|] == r;
    assert s[k + |r|..] == front[|r|..];
    if r == [] {
      assert front[|r|..] == front;
      assert s == s[..k] + front;
      WhitespaceConcat(s[..k], front);
    } else {
      assert front[0] == r[0] == s[k];
    }
    assert TrimmedAt(s, r, k);
  }

  /** Trim is the only string that is whitespace-free at both ends and sits
      in `s` between whitespace: any such slice is `Trim(s)`. */
  lemma TrimUnique(s: string, t: string, i: int)
    requires TrimmedAt(s, t, i)
    requires t == [] <==> AllWhitespace(s)
    requires t != [] ==> !IsJsWhitespace(t[0]) && !IsJsWhitespace(t[|t| - 1])
    ensures t == Trim(s)
  {
    var r := Trim(s);
    var j :| TrimmedAt(s, r, j);
    if t != [] {
      SameStart(s, t, i, r, j);
      SameEnd(s, t, i, r, j);
      assert s[i..i + |t|] == t && s[j..j + |r|] == r;
    }
  }

  /** Two non-empty slices between whitespace that start with a
      non-whitespace character start at the same place. */
  lemma SameStart(s: string, t: string, i: int, r: string, j: int)
    requires TrimmedAt(s, t, i) && TrimmedAt(s, r, j)
    requires t != [] && r != [] && !IsJsWhitespace(t[0]) && !IsJsWhitespace(r[0])
    ensures i == j
  {
    assert s[i..i + |t|][0] == s[i] && s[j..j + |r|][0] == s[j];
  }

  /** Two non-empty slices between whitespace that end with a
      non-whitespace character end at the same place. */
  lemma SameEnd(s: string, t: string, i: int, r: string, j: int)
    requires TrimmedAt(s, t, i) && TrimmedAt(s, r, j)
    requires t != [] && r != [] && !IsJsWhitespace(t[|t| - 1]) && !IsJsWhitespace(r[|r| - 1])
    ensures i + |t| == j + |r|
  {
    var e, f := i + |t|, j + |r|;
    assert s[i..e][|t| - 1] == s[e - 1] && s[j..f][|r| - 1] == s[f - 1];
  }

  lemma WhitespaceConcat(a: string, b: string)
    requires AllWhitespace(a) && AllWhitespace(b)
    ensures AllWhitespace(a + b)
  {
    forall i | 0 <= i < |a + b|
      ensures IsJsWhitespace((a + b)[i])
    {
      if i >= |a| {
        assert (a + b)[i] == b[i - |a|];
      }
    }
  }

  /** Trimming an already trimmed string changes nothing. */
  lemma TrimIdempotent(s: string)
    ensures Trim(Trim(s)) == Trim(s)
  {
  }

  function DigitChar(d: int): (c: char)
    requires 0 <= d < 10
    ensures IsDigit(c)
  {
    ('0' as int + d) as char
  }

  function DigitValue(c: char): (d: nat)
    requires IsDigit(c)
    ensures d < 10
  {
    c as int - '0' as int
  }

  predicate AllDigits(s: string)
  {
    forall i :: 0 <= i < |s| ==> IsDigit(s[i])
  }

  /** The value of a string of decimal digits, most significant first. */
  function DigitsValue(s: string): nat
    requires AllDigits(s)
  {
    if s == [] then 0 else DigitsValue(s[..|s| - 1]) * 10 + DigitValue(s[|s| - 1])
  }

  /** The decimal rendering JavaScript gives a non-negative integer: digits
      only, never empty, and without a leading zero unless the value is 0. */
  function NatToString(n: nat): (r: string)
    ensures |r| >= 1
    ensures AllDigits(r)
    ensures r[0] == '0' ==> n == 0
  {
    if n < 10 then [DigitChar(n)] else NatToString(n / 10) + [DigitChar(n % 10)]
  }

  /** Reads a decimal numeral in the form `NatToString` writes it: digits
      only, without a leading zero unless it is "0"; `None` for anything else. */
  function ParseNat(s: string): Option<nat>
  {
    if s != [] && AllDigits(s) && (s[0] != '0' || |s| == 1) then Some(DigitsValue(s)) else None
  }

  /** Rendering then reading a count gives the count back. */
  lemma {:induction false} ParseNatToString(n: nat)
    ensures ParseNat(NatToString(n)) == Some(n)
  {
    if n < 10 {
      var r := [DigitChar(n)];
      assert r[..0] == [];
      assert DigitsValue(r) == DigitValue(r[0]) == n;
    } else {
      var prefix := NatToString(n / 10);
      var r := prefix + [DigitChar(n % 10)];
      assert r[..|r| - 1] == prefix;
      ParseNatToString(n / 10);
      assert DigitValue(r[|r| - 1]) == n % 10;
      assert DigitsValue(r) == DigitsValue(prefix) * 10 + n % 10;
      assert DigitsValue(prefix) == n / 10;
    }
  }

  /** Only the rendering of a count reads back as that count, so a text
      whose reading is fixed is itself fixed. */
  lemma {:induction false} ParseNatCanonical(s: string, n: nat)
    requires ParseNat(s) == Some(n)
    ensures s == NatToString(n)
    decreases |s|
  {
    if |s| > 1 {
      var prefix := s[..|s| - 1];
      assert prefix[0] == s[0];
      var m := DigitsValue(prefix);
      ParseNatCanonical(prefix, m);
      assert m != 0;
      assert n == m * 10 + DigitValue(s[|s| - 1]);
      assert n / 10 == m && n % 10 == DigitValue(s[|s| - 1]);
      assert DigitChar(n % 10) == s[|s| - 1];
      assert s == prefix + [s[|s| - 1]];
    } else {
      assert s[..|s| - 1] == [];
      assert n == DigitsValue(s[..|s| - 1]) * 10 + DigitValue(s[0]);
      assert DigitChar(n) == s[0];
    }
  }

  /** Different counts render differently. */
  lemma NatToStringInjective(m: nat, n: nat)
    requires NatToString(m) == NatToString(n)
    ensures m == n
  {
    ParseNatToString(m);
    ParseNatToString(n);
  }
}

=== FILE: time_left.dfy ===
/** The two "time left" formatters for hot deals: the route's floor-based
    `Nd Hh` countdown and the ceiling-based day label used by the model's
    virtual field and by the storefront pages. Times are integer milliseconds. */
module TimeLeft {
  import opened Wrappers
  import opened Text

  const HOUR: int := 1000 * 60 * 60
  const DAY: int := 1000 * 60 * 60 * 24

  /** Whole days and leftover whole hours of a remaining time. */
  datatype Countdown = Countdown(days: nat, hours: nat)

  /** `Math.floor(diff / DAY)` and `Math.floor((diff % DAY) / HOUR)` for a
      positive `diff`, where JavaScript's truncating `%` agrees with Dafny's. */
  function SplitRemaining(diff: int): (c: Countdown)
    requires diff > 0
    ensures c.hours < 24
    ensures c.days * DAY + c.hours * HOUR <= diff < c.days * DAY + (c.hours + 1) * HOUR
  {
    var days := diff / DAY;
    var rest := diff % DAY;
    var hours := rest / HOUR;
    assert diff == days * DAY + rest;
    assert rest == hours * HOUR + rest % HOUR;
    Countdown(days, hours)
  }

  function CountdownText(c: Countdown): string
  {
    NatToString(c.days) + "d " + NatToString(c.hours) + "h"
  }

  /** The position of the first `c` in `s`, or `|s|` when there is none. */
  function IndexOfChar(s: string, c: char): (k: nat)
    ensures k <= |s|
    ensures k < |s| ==> s[k] == c
    ensures forall i :: 0 <= i < k ==> s[i] != c
  {
    if s == [] then 0 else if s[0] == c then 0 else 1 + IndexOfChar(s[1..], c)
  }

  /** Reads an `Nd Hh` countdown back. */
  function ParseCountdown(s: string): Option<Countdown>
  {
    var k := IndexOfChar(s, 'd');
    if k + 3 <= |s| && s[k + 1] == ' ' && s[|s| - 1] == 'h' then
      match (ParseNat(s[..k]), ParseNat(s[k + 2..|s| - 1]))
      case (Some(d), Some(h)) => Some(Countdown(d, h))
      case _ => None
    else
      None
  }

  /** Rendering a countdown and reading it back gives the countdown. */
  lemma ParseCountdownText(c: Countdown)
    ensures ParseCountdown(CountdownText(c)) == Some(c)
  {
    var d := NatToString(c.days);
    var h := NatToString(c.hours);
    var s := CountdownText(c);
    assert s == d + ['d', ' '] + h + ['h'];
    assert s[|d|] == 'd';
    var k := IndexOfChar(s, 'd');
    assert forall i :: 0 <= i < |d| ==> s[i] == d[i] && IsDigit(s[i]);
    assert k == |d|;
    assert s[..k] == d;
    assert s[k + 2..|s| - 1] == h;
    ParseNatToString(c.days);
    ParseNatToString(c.hours);
  }

  /** `calculateTimeLeft` of the hot-deals API: "Expired" once the end is not
      in the future, otherwise whole days and the whole hours left over. */
  function CalculateTimeLeft(endDate: int, now: int): (r: string)
    ensures r == "Expired" <==> endDate - now <= 0
    ensures endDate - now > 0 ==>
      && ParseCountdown(r).Some?
      && var c := ParseCountdown(r).value;
      && c.hours < 24
      && c.days * DAY + c.hours * HOUR <= endDate - now < c.days * DAY + (c.hours + 1) * HOUR
  {
    var diff := endDate - now;
    if diff <= 0 then "Expired"
    else
      var c := SplitRemaining(diff);
      ParseCountdownText(c);
      var r := CountdownText(c);
      assert r[0] != 'E';
      r
  }

  /** `Math.ceil(diff / DAY)`: the least whole number of days covering `diff`. */
  function CeilDays(diff: int): (days: int)
    ensures (days - 1) * DAY < diff <= days * DAY
  {
    -((-diff) / DAY)
  }

  /** The day count only grows as the end date moves later. */
  lemma CeilDaysMonotone(endDate1: int, endDate2: int, now: int)
    requires endDate1 <= endDate2
    ensures CeilDays(endDate1 - now) <= CeilDays(endDate2 - now)
  {
    var d1 := CeilDays(endDate1 - now);
    var d2 := CeilDays(endDate2 - now);
    assert (d1 - 1) * DAY < d2 * DAY;
  }

  /** The label chosen from a day count. */
  function DaysLabel(days: int): string
  {
    if days < 0 then "Expired"
    else if days == 0 then "Ends today"
    else if days == 1 then "1 day"
    else NatToString(days) + " days"
  }

  /** Reads a day label back to its day count; `None` for "Expired". */
  function LabelDays(s: string): Option<nat>
  {
    if s == "Ends today" then Some(0)
    else if s == "1 day" then Some(1)
    else if |s| > 5 && s[|s| - 5..] == " days" then ParseNat(s[..|s| - 5])
    else None
  }

  /** The `timeLeft` virtual of the hot-deal model (the same rule is the
      `getTimeLeft` of the storefront page and of the second API route):
      a deal that ended less than a day ago still "Ends today". */
  function TimeLeftLabel(endDate: int, now: int): (r: string)
    ensures r == "Expired" <==> endDate - now <= -DAY
    ensures r == "Ends today" <==> -DAY < endDate - now <= 0
    ensures r == "1 day" <==> 0 < endDate - now <= DAY
    ensures endDate - now > -DAY ==> LabelDays(r) == Some(CeilDays(endDate - now))
    ensures endDate - now > DAY ==> CeilDays(endDate - now) >= 2 && LabelDays(r).Some?
  {
    var days := CeilDays(endDate - now);
    DaysLabelRoundTrip(days);
    DaysLabel(days)
  }

  /** A label reads back to the day count it was made from, and the labels of
      different cases never coincide. */
  lemma DaysLabelRoundTrip(days: int)
    ensures days >= 0 ==> LabelDays(DaysLabel(days)) == Some(days)
    ensures days >= 2 ==> DaysLabel(days) !in {"Expired", "Ends today", "1 day"}
  {
    if days >= 2 {
      var digits := NatToString(days);
      var r := DaysLabel(days);
      assert r == digits + " days";
      assert r[0] != 'E';
      assert |r| > 5 && r[|r| - 5..] == " days" && r[..|r| - 5] == digits;
      ParseNatToString(days);
    }
  }

  /** Where the two formatters part: in the day after the end the countdown
      already reads "Expired" but the day label still reads "Ends today". */
  lemma FormattersDisagreeAfterEnd(endDate: int, now: int)
    requires -DAY < endDate - now <= 0
    ensures CalculateTimeLeft(endDate, now) == "Expired"
    ensures TimeLeftLabel(endDate, now) == "Ends today"
  {
  }
}

=== FILE: wrappers.dfy ===
/** Failure-compatible wrappers shared by every module of the model. */
module Wrappers {

  /** A value that may be absent: JavaScript's `undefined` / `null` results. */
  datatype Option<+T> = None | Some(value: T) {

    /** Returns the wrapped value, or `default` when there is none. */
    function GetOr(default: T): T {
      match this
      case Some(v) => v
      case None => default
    }
  }
}
